=== FILE: README.md ===
# Cart and checkout engine of the shop backend

This project models the cart and checkout engine of a multi-store shop backend (a Laravel
application). The engine is four controllers' worth of request handlers:

- the cart handlers: add, update, remove, clear and list;
- the order handlers: full checkout, partial checkout, cancel, the merchant's status update
  and the three read paths;
- the catalogue rules that feed checkout: product create, update and delete, the not-found
  paths, the sort whitelist and the per-store listing;
- the `role:` route middleware.

Each handler is a pure function from the database (`Domain.State`: one immutable map per
table plus the auto-increment counters) to a `Reply`: the answer (`Ok` or an `Error` that
maps to the HTTP status the handler sends) and the database after its transaction. A refused
request leaves the database unchanged, which is how the model expresses a rolled-back
transaction. Money is integer cents.

Modules follow the program's structure:

- `Base`: options, ascending enumeration of ids, least id.
- `Domain`: rows, state, errors.
- `Invariants`: the consistency conditions over the whole database.
- `Stock`: the decrement/increment ledger.
- `RoleGate`: the middleware.
- `Catalog`: product handlers.
- `Carts`: cart handlers and listing.
- `CartLaws`: what the cart handlers preserve.
- `Checkouts`: the two checkout handlers.
- `CheckoutLaws`: what checkout preserves and how it moves stock.
- `Orders`: cancel, status update and the read paths.
- `OrderLaws`: cancel undoes checkout, and order handlers keep the invariants.

`Invariants.Valid` is the conjunction of:

- stock within 0 .. 2^31-1 and price within the decimal column;
- every cart row attached to a cart with quantity ≥ 1;
- no empty cart;
- one cart per (user, store);
- one row per (cart, product);
- one store per owner;
- every order's total equal to the sum of its line subtotals;
- ids below the counters.

Every write handler is proved to keep `Valid`.

## Model

| member | source | states |
|---|---|---|
| Stock.Deplete | backend-app/app/Http/Controllers/OrderController.php:80-92 | applying the checkout decrements line by line lowers every product by exactly the units the lines record for it, and leaves the key set alone |
| Stock.Restock | backend-app/app/Http/Controllers/OrderController.php:352-357 | applying the cancel increments raises each product by exactly the units its lines record; it fails only when an increment would leave the 32-bit `stock` column, and it always succeeds when every product has room |
| Stock.RestockUndoesDeplete | backend-app/app/Http/Controllers/OrderController.php:352-357 | increments after decrements by the same non-negative lines give back exactly the products one started with |
| Stock.OrderedDistinct | backend-app/app/Http/Controllers/OrderController.php:80-92 | when an order's lines name distinct products, each product is lowered by exactly its own line's quantity |
| RoleGate.ParseRole | backend-app/app/Enums/UserRole.php:5-10 | `UserRole::from` accepts exactly the three backing strings and returns the case whose string it was given |
| RoleGate.Handle | backend-app/app/Http/Middleware/RoleMiddleware.php:12-28 | no user gives 401; a route role name outside the enum raises; a user whose role string is not among the route's names gives 403; every other request passes through with the same user |
| RoleGate.ExactRoleMatch | backend-app/app/Http/Middleware/RoleMiddleware.php:23-25 | the comparison is strict string equality: any role string other than the allowed name is refused with 403 |
| Catalog.SortKey | backend-app/app/Http/Controllers/ProductController.php:24-27 | the sort column is always whitelisted; it is the requested one exactly when that one is whitelisted, and `id` for any other request |
| Catalog.ShowProduct | backend-app/app/Http/Controllers/ProductController.php:83-102 | the product is returned if and only if it exists, otherwise 404 |
| Catalog.StoreProducts | backend-app/app/Http/Controllers/ProductController.php:107-134 | an unknown store gives 404; the listing succeeds exactly when the store exists and has a product, and any other request gives 404; on success the result is exactly the store's products |
| Catalog.CreateProduct | backend-app/app/Http/Controllers/ProductController.php:139-185 | validation failure (including a stock outside the PHP integer range) gives 422; success holds exactly when the request is valid and fits the columns; it inserts one product under the next id with the requested store, name, description, price, stock and category, active unless the request says false, and the rest of the database, other tables and counters included, is unchanged |
| Catalog.UpdateProduct | backend-app/app/Http/Controllers/ProductController.php:190-243 | a missing product gives 404 before validation; a null for a non-nullable field or a stock outside the PHP integer range gives 422; success holds exactly when the product exists, the request is valid and the merged row fits the columns; on success the returned row is the merge, each field the request gives is set, every field it omits keeps its value, and only that product row changes |
| Catalog.DestroyProduct | backend-app/app/Http/Controllers/ProductController.php:248-273 | succeeds if and only if the product exists, and then removes exactly that product |
| Catalog.CreateProductKeepsValid | backend-app/app/Http/Controllers/ProductController.php:142-151 | validation plus the column widths keep stock and price within range, so a create keeps every invariant |
| Catalog.UpdateProductKeepsValid | backend-app/app/Http/Controllers/ProductController.php:198-228 | an update keeps every invariant |
| Catalog.DestroyProductKeepsValid | backend-app/app/Http/Controllers/ProductController.php:248-273 | a delete keeps every invariant |
| Catalog.CreatedProductActiveByDefault | backend-app/app/Http/Controllers/ProductController.php:169 | a product created without `is_active` is active |
| Carts.AddItem | backend-app/app/Http/Controllers/CartController.php:65-152 | an unknown product, or a quantity below 1 or above the PHP integer range, gives 422; a requested quantity above stock gives 400 before the active check, and an inactive product gives 400 after it; once those pass, the only refusal is 400 for held + requested above stock; a success leaves the product in the caller's cart for the product's store, the only cart that may appear is that one, and no other row, product, order, store or counter besides the cart and row counters changes |
| CartLaws.AddItemAccumulates | backend-app/app/Http/Controllers/CartController.php:107-124 | when the caller's cart already holds the product, success is decided by held + requested ≤ stock, and a success grows that same row without adding a row or a cart |
| CartLaws.AddItemInserts | backend-app/app/Http/Controllers/CartController.php:125-132 | when the cart does not hold the product, a success inserts exactly one row, under the next id, holding the requested quantity |
| CartLaws.AddItemKeepsValid | backend-app/app/Http/Controllers/CartController.php:99-134 | `firstOrCreate` plus the row insert or accumulate keeps every invariant: one cart per (user, store), one row per (cart, product), no empty cart |
| Carts.UpdateItem | backend-app/app/Http/Controllers/CartController.php:157-204 | a quantity below 1 or above the PHP integer range gives 422; a row not in the caller's carts, or one whose product is gone, gives 500; a quantity above stock gives 400; success holds exactly when the new quantity is a valid integer within stock, and then only that row's quantity changes, every other table and counter included |
| CartLaws.UpdateItemKeepsValid | backend-app/app/Http/Controllers/CartController.php:187 | setting a quantity keeps every invariant |
| Carts.RemoveItem | backend-app/app/Http/Controllers/CartController.php:209-241 | succeeds if and only if the row is in the caller's carts; the row goes, its cart survives exactly when another row is left in it, and nothing else changes |
| CartLaws.RemoveItemKeepsValid | backend-app/app/Http/Controllers/CartController.php:220-228 | removing a row keeps every invariant; in particular no empty cart is left |
| Carts.ClearCart | backend-app/app/Http/Controllers/CartController.php:246-268 | succeeds if and only if the cart is the caller's; the cart and all of its rows go, and every other row, table and counter is untouched |
| CartLaws.ClearCartKeepsValid | backend-app/app/Http/Controllers/CartController.php:254-255 | clearing a cart keeps every invariant |
| Carts.CartViews | backend-app/app/Http/Controllers/CartController.php:24-52 | each listed cart is the caller's; each line is one of the cart's rows priced at the product's current price; the cart total is the sum of the line subtotals; the listing raises when a row's product is gone |
| Carts.LiveTotalIsSumOfSubtotals | backend-app/app/Http/Controllers/CartController.php:26-28 | the `sum(price × quantity)` total equals the sum of the listed subtotals |
| Carts.ListCarts | backend-app/app/Http/Controllers/CartController.php:18-60 | the listing succeeds exactly when every row of the caller's carts (below the id counters, as every row of a valid database is) still has its product, and otherwise raises (500); every listed cart is priced as above |
| CartLaws.ListedCartsComplete | backend-app/app/Http/Controllers/CartController.php:18-60 | the listing shows every cart of the caller, and none of them without a line |
| Checkouts.Refusal | backend-app/app/Http/Controllers/OrderController.php:51-69 | the validation loop refuses at the first row whose product is gone, short of stock or inactive, with that row's reason, and passes exactly when every row is buyable |
| Checkouts.TotalIsSumOfSubtotals | backend-app/app/Http/Controllers/OrderController.php:56-77 | the order's total price is the sum of its lines' subtotals |
| Checkouts.Checkout | backend-app/app/Http/Controllers/OrderController.php:20-117 | a missing cart gives 422 and another user's cart gives 500; an empty cart is refused; a cart with an unbuyable row is refused with the reason of the first such row; success holds exactly when the caller's cart is non-empty and every row is buyable; on success a pending order at the cart's store is written whose lines copy name, price and quantity, each product drops by what it records, and the cart and all of its rows are gone |
| Checkouts.SelectedPicks | backend-app/app/Http/Controllers/OrderController.php:140-145 | partial checkout reads exactly the requested rows that sit in the caller's carts |
| Checkouts.ConsumeRemovesPicked | backend-app/app/Http/Controllers/OrderController.php:197-219 | the row-by-row consume loop deletes exactly the picked rows, and deletes a touched cart exactly when it has no row left |
| Checkouts.PartialCheckout | backend-app/app/Http/Controllers/OrderController.php:122-240 | an invalid request gives 422; no selected row gives 404; rows from several stores are refused; rows from one store with an unbuyable row are refused with the reason of the first such row; success holds exactly when the rows are from one store and all are buyable; on success an order at that store is written, exactly the selected rows go, and a touched cart survives only while it keeps a row |
| CheckoutLaws.CheckoutKeepsValid | backend-app/app/Http/Controllers/OrderController.php:72-96 | full checkout keeps every invariant: stock never negative, order total the sum of its subtotals, no empty cart |
| CheckoutLaws.PartialCheckoutKeepsValid | backend-app/app/Http/Controllers/OrderController.php:188-219 | partial checkout keeps every invariant |
| CheckoutLaws.PlacedStock | backend-app/app/Http/Controllers/OrderController.php:80-92 | placing an order of buyable rows with distinct products lowers each by exactly its row's quantity, leaves other products alone and keeps stock in range |
| CheckoutLaws.CheckoutLowersStock | backend-app/app/Http/Controllers/OrderController.php:80-96 | after full checkout every row of the cart is gone, its product's stock is lower by exactly that row's quantity, and every other product is unchanged |
| CheckoutLaws.PartialCheckoutLowersStock | backend-app/app/Http/Controllers/OrderController.php:197-219 | the same for partial checkout and the selected rows |
| Orders.Cancel | backend-app/app/Http/Controllers/OrderController.php:334-376 | not the caller's order gives 500 and a non-pending order gives 400; a pending order of the caller whose increments fit is cancelled; success puts each product back by exactly what the order's lines record and changes nothing but that and the order's status |
| Orders.MerchantStatus | backend-app/app/Http/Controllers/OrderController.php:430-439 | the accepted statuses are exactly the non-pending ones, by name |
| Orders.StoreOf | backend-app/app/Http/Controllers/OrderController.php:444-449 | the caller's store, if they own one |
| Orders.UpdateStatus | backend-app/app/Http/Controllers/OrderController.php:428-471 | an unknown status gives 422, a caller without a store gives 403, an order not at the caller's store gives 500; success holds exactly when the order belongs to the caller's store, and then only that order's status changes (no stock moves, even for `cancelled`) |
| Orders.ShowOrder | backend-app/app/Http/Controllers/OrderController.php:287-329 | the order is returned if and only if it is the caller's, otherwise 404 |
| Orders.MyOrders | backend-app/app/Http/Controllers/OrderController.php:245-282 | exactly the caller's orders, newest first |
| Orders.StoreOrders | backend-app/app/Http/Controllers/OrderController.php:381-423 | 403 exactly when the caller has no store; otherwise exactly the orders of that store, newest first |
| OrderLaws.CancelRestocks | backend-app/app/Http/Controllers/OrderController.php:350-362 | a cancel whose increments fit ends with exactly the products the ledger computes and the order cancelled |
| OrderLaws.CancelUndoesPlace | backend-app/app/Http/Controllers/OrderController.php:352-357 | cancelling a just-placed order succeeds and restores every product's stock |
| OrderLaws.CancelUndoesCheckout | backend-app/app/Http/Controllers/OrderController.php:334-376 | cancel is the exact inverse of full checkout on stock: cancelling the order a checkout just placed succeeds and every product is as before |
| OrderLaws.CancelUndoesPartialCheckout | backend-app/app/Http/Controllers/OrderController.php:334-376 | the same for partial checkout |
| OrderLaws.CancelTwiceRefused | backend-app/app/Http/Controllers/OrderController.php:343-348 | after a successful cancel a second cancel of the same order is refused and changes nothing |
| OrderLaws.CancelKeepsValid | backend-app/app/Http/Controllers/OrderController.php:334-376 | cancel keeps every invariant |
| OrderLaws.UpdateStatusKeepsValid | backend-app/app/Http/Controllers/OrderController.php:451-454 | the status update keeps every invariant |

## Left out

- Authentication (JWT, `auth('api')`): the caller is a parameter, and the 401 path is modelled only in the role middleware.
- Photo upload and storage, and the `photo_url` column: file I/O.
- The product index's search, pagination and sort direction. Only the sort-column whitelist is modelled; the query itself is database I/O.
- The other controllers (stores, users, authentication) and notifications: outside the cart and checkout engine.
- Concurrency: two requests interleaving inside or across transactions are not modelled. Each handler is one atomic step.
- PHP floats: prices and totals are exact integer cents. The source multiplies decimal strings as floats, so rounding is not modelled.
- Response bodies: the model returns ids and the decision, not the JSON shapes or messages.
- Row order: where a query asks for no order (a cart's rows, the selected rows, a store's products), the model assumes ascending id. SQL promises no order there, and the order decides which row's refusal checkout reports, the order of an order's lines and the order of the listings.
- `created_at desc` ordering: modelled as descending id, since ids grow with insertion time.
- Catalog.DestroyProduct: the database's foreign-key behaviour on the cart and order rows that point at a deleted product is not modelled; those rows are left as they are. Checkout and the cart listing then fail on the missing product (500), while cancel skips its lines and restocks the rest.
- Catalog.UpdateProduct, Catalog.DestroyProduct: the source checks no ownership of the product, and neither does the model.
- Orders.Cancel: it requires nothing of an order's lines beyond what checkout writes; the success direction is stated only for lines with non-negative quantities whose increments fit the column.
- The framework's conversion of empty strings to null and its trimming of request strings: request values arrive as the model's fields.
- Column widths of the orders and cart rows: only the products table's widths (name 100, category 50, price decimal(12,2), stock 32-bit integer) are modelled.

=== FILE: base.dfy ===
/** Small building blocks shared by the whole model: an optional value and the
    ascending enumeration of auto-increment ids. Where a query asks for no order,
    the model assumes the rows come back in ascending id order; SQL itself
    promises no order there. */
module Base {

  datatype Option<+T> = None | Some(value: T) {

    /** The carried value, or `default` when there is none (PHP's `??`). */
    function GetOr(default: T): T {
      match this
      case Some(v) => v
      case None => default
    }
  }

  /** The members of `ids` below `bound`, in strictly increasing order. */
  function Ascending(ids: set<nat>, bound: nat): (r: seq<nat>)
    ensures forall k :: 0 <= k < |r| ==> r[k] in ids && r[k] < bound
    ensures forall x :: x in ids && x < bound ==> x in r
    ensures forall j, k :: 0 <= j < k < |r| ==> r[j] < r[k]
    decreases bound
  {
    if bound == 0 then []
    else Ascending(ids, bound - 1) + (if bound - 1 in ids then [bound - 1] else [])
  }

  /** The least member of `ids` below `bound`, if there is one. */
  function Least(ids: set<nat>, bound: nat): (r: Option<nat>)
    ensures r.Some? ==> r.value in ids && r.value < bound
    ensures r.Some? ==> forall x :: x in ids ==> r.value <= x
    ensures r.None? ==> forall x :: x in ids ==> bound <= x
  {
    var xs := Ascending(ids, bound);
    if |xs| == 0 then None
    else
      assert forall x :: x in ids && x < bound ==> xs[0] <= x by {
        forall x | x in ids && x < bound ensures xs[0] <= x {
          var k :| 0 <= k < |xs| && xs[k] == x;
          assert k == 0 || xs[0] < xs[k];
        }
      }
      Some(xs[0])
  }

  /** A strict upper bound of the numbers in `xs`. */
  function Bound(xs: seq<nat>): (r: nat)
    ensures forall k :: 0 <= k < |xs| ==> xs[k] < r
  {
    if |xs| == 0 then 0
    else
      var b := Bound(xs[1..]);
      assert forall k :: 1 <= k < |xs| ==> xs[k] == xs[1..][k - 1];
      if xs[0] < b then b else xs[0] + 1
  }
}

=== FILE: cart_laws.dfy ===
/** What the cart handlers guarantee over a consistent database: each keeps every
    invariant, adding a product already in the cart grows that one row instead of
    adding a second, and the listing never shows an empty cart. */
module CartLaws {
  import opened Base
  import opened Domain
  import opened Invariants
  import opened Carts

  /** Every invariant, except that cart `c` may (still) be empty: the state between
      `firstOrCreate` and the row insert. */
  predicate ValidBut(s: State, c: Id) {
    && StockInRange(s)
    && ItemsAttached(s)
    && (forall d :: d in s.carts && d != c ==> HasItems(s.items, d))
    && OneCartPerUserStore(s)
    && OneRowPerProduct(s)
    && OneStorePerOwner(s)
    && OrdersWellFormed(s)
    && IdsBelowCounters(s)
  }

  lemma StageCartValidBut(s: State, user: Id, store: Id)
    requires Valid(s)
    ensures ValidBut(StageCart(s, user, store).0, StageCart(s, user, store).1)
    ensures StageCart(s, user, store).1 !in s.carts ==>
              !HasItems(StageCart(s, user, store).0.items, StageCart(s, user, store).1)
  {
    var (s1, c) := StageCart(s, user, store);
    if c !in s.carts {
      assert FindCart(s, user, store).None?;
      forall d | d in s.carts
        ensures s.carts[d] != Cart(user, store)
      {
        assert d < s.nextCart;
        assert d !in CartsFor(s, user, store);
      }
      assert OneCartPerUserStore(s1);
    }
  }

  /** The invariants about products, carts, stores and orders hold in any state with
      the same four tables. */
  lemma OtherTablesKept(s: State, s2: State)
    requires StockInRange(s) && OneCartPerUserStore(s) && OneStorePerOwner(s) && OrdersWellFormed(s)
    requires s2.products == s.products && s2.carts == s.carts && s2.stores == s.stores && s2.orders == s.orders
    ensures StockInRange(s2) && OneCartPerUserStore(s2) && OneStorePerOwner(s2) && OrdersWellFormed(s2)
  {
  }

  /** Changing only row quantities, to positive ones, keeps rows attached and unique. */
  lemma RequantifiedRows(s: State, items: map<Id, CartItem>)
    requires ItemsAttached(s) && OneRowPerProduct(s)
    requires items.Keys == s.items.Keys
    requires forall j :: j in items ==>
               items[j].cartId == s.items[j].cartId && items[j].productId == s.items[j].productId
               && 1 <= items[j].quantity
    ensures ItemsAttached(s.(items := items)) && OneRowPerProduct(s.(items := items))
    ensures forall c :: HasItems(s.items, c) ==> HasItems(items, c)
  {
    forall c | HasItems(s.items, c)
      ensures HasItems(items, c)
    {
      var j :| j in s.items && s.items[j].cartId == c;
      assert items[j].cartId == c;
    }
  }

  /** Growing the existing row keeps every invariant. */
  lemma GrowRowValid(s: State, c: Id, i: Id, total: int)
    requires ValidBut(s, c)
    requires i in s.items && s.items[i].cartId == c
    requires s.items[i].quantity <= total
    ensures Valid(s.(items := s.items[i := s.items[i].(quantity := total)]))
  {
    var s2 := s.(items := s.items[i := s.items[i].(quantity := total)]);
    RequantifiedRows(s, s2.items);
    OtherTablesKept(s, s2);
    assert HasItems(s2.items, c) by {
      assert s2.items[i].cartId == c;
    }
    assert NoEmptyCart(s2);
    assert IdsBelowCounters(s2);
  }

  /** A fresh row for a product its cart does not hold keeps rows attached and unique,
      and every cart that had a row still has one. */
  lemma InsertedRow(s: State, row: CartItem)
    requires ItemsAttached(s) && OneRowPerProduct(s) && s.nextItem !in s.items
    requires row.cartId in s.carts && 1 <= row.quantity
    requires forall j :: j in s.items && s.items[j].cartId == row.cartId ==> s.items[j].productId != row.productId
    ensures var s2 := s.(items := s.items[s.nextItem := row], nextItem := s.nextItem + 1);
            && ItemsAttached(s2) && OneRowPerProduct(s2)
            && HasItems(s2.items, row.cartId)
            && forall d :: HasItems(s.items, d) ==> HasItems(s2.items, d)
  {
    var items := s.items[s.nextItem := row];
    assert items[s.nextItem].cartId == row.cartId;
    forall d | HasItems(s.items, d)
      ensures HasItems(items, d)
    {
      var j :| j in s.items && s.items[j].cartId == d;
      assert items[j].cartId == d;
    }
  }

  /** Inserting a row for a product the cart does not hold keeps every invariant. */
  lemma InsertRowValid(s: State, c: Id, productId: Id, quantity: int)
    requires ValidBut(s, c)
    requires c in s.carts && 1 <= quantity
    requires forall j :: j in s.items && s.items[j].cartId == c ==> s.items[j].productId != productId
    ensures Valid(s.(items := s.items[s.nextItem := CartItem(c, productId, quantity)], nextItem := s.nextItem + 1))
  {
    var s2 := s.(items := s.items[s.nextItem := CartItem(c, productId, quantity)], nextItem := s.nextItem + 1);
    assert s.nextItem !in s.items;
    InsertedRow(s, CartItem(c, productId, quantity));
    OtherTablesKept(s, s2);
    assert NoEmptyCart(s2);
    assert IdsBelowCounters(s2);
  }

  /** The row update after `firstOrCreate` restores the full invariant: the cart now holds a row. */
  lemma AccumulateValid(s: State, c: Id, productId: Id, quantity: int, stock: int)
    requires ValidBut(s, c)
    requires c in s.carts
    requires 1 <= quantity <= stock
    requires Accumulate(s, c, productId, quantity, stock).Some?
    ensures Valid(Accumulate(s, c, productId, quantity, stock).value.0)
  {
    if FindRow(s, c, productId).Some? {
      AccumulateGrowValid(s, c, productId, quantity, stock);
    } else {
      AccumulateInsertValid(s, c, productId, quantity, stock);
    }
  }

  lemma AccumulateGrowValid(s: State, c: Id, productId: Id, quantity: int, stock: int)
    requires ValidBut(s, c)
    requires c in s.carts && 1 <= quantity <= stock
    requires FindRow(s, c, productId).Some?
    requires Accumulate(s, c, productId, quantity, stock).Some?
    ensures Valid(Accumulate(s, c, productId, quantity, stock).value.0)
  {
    var i := FindRow(s, c, productId).value;
    assert i in RowsFor(s, c, productId);
    var total := s.items[i].quantity + quantity;
    assert Accumulate(s, c, productId, quantity, stock).value.0 == s.(items := s.items[i := s.items[i].(quantity := total)]);
    GrowRowValid(s, c, i, total);
  }

  lemma AccumulateInsertValid(s: State, c: Id, productId: Id, quantity: int, stock: int)
    requires ValidBut(s, c)
    requires c in s.carts && 1 <= quantity <= stock
    requires FindRow(s, c, productId).None?
    ensures Valid(Accumulate(s, c, productId, quantity, stock).value.0)
  {
    forall j | j in s.items && s.items[j].cartId == c
      ensures s.items[j].productId != productId
    {
      assert j < s.nextItem;
      assert j !in RowsFor(s, c, productId);
    }
    InsertRowValid(s, c, productId, quantity);
  }

  lemma AddItemKeepsValid(s: State, user: Id, productId: Id, quantity: int)
    requires Valid(s)
    ensures Valid(AddItem(s, user, productId, quantity).state)
  {
    if productId in s.products && 1 <= quantity <= s.products[productId].stock && s.products[productId].isActive {
      var p := s.products[productId];
      StageCartValidBut(s, user, p.storeId);
      var (s1, c) := StageCart(s, user, p.storeId);
      if Accumulate(s1, c, productId, quantity, p.stock).Some? {
        AccumulateValid(s1, c, productId, quantity, p.stock);
      }
    }
  }

  /** Does row `i` hold `productId` in the caller's cart for the product's store? */
  predicate HeldRow(s: State, user: Id, productId: Id, i: Id)
    requires productId in s.products
  {
    OwnedItem(s, user, i) && s.items[i].productId == productId
    && s.carts[s.items[i].cartId].storeId == s.products[productId].storeId
  }

  /** Adding a product the caller's cart already holds: the outcome is decided by the
      sum of the held and requested quantities, and a success grows that same row in
      place, creating no row and no cart. */
  lemma AddItemAccumulates(s: State, user: Id, productId: Id, quantity: int, i: Id)
    requires Valid(s)
    requires productId in s.products
    requires HeldRow(s, user, productId, i)
    ensures var r := AddItem(s, user, productId, quantity);
            && (r.result.Ok? <==>
                  1 <= quantity && s.products[productId].isActive
                  && s.items[i].quantity + quantity <= s.products[productId].stock)
            && (r.result.Ok? ==>
                  && r.result.value == Line(i, s.items[i].quantity + quantity)
                  && r.state.items.Keys == s.items.Keys
                  && r.state.carts == s.carts)
  {
    var p := s.products[productId];
    var c := s.items[i].cartId;
    assert c in CartsFor(s, user, p.storeId);
    assert FindCart(s, user, p.storeId) == Some(c);
    assert i in RowsFor(s, c, productId);
    assert FindRow(s, c, productId) == Some(i);
  }

  /** Adding a product the caller's cart does not hold yet: a success creates one row
      holding exactly the requested quantity. */
  lemma AddItemInserts(s: State, user: Id, productId: Id, quantity: int)
    requires ItemsAttached(s) && IdsBelowCounters(s)
    requires productId in s.products
    requires forall i :: i in s.items ==> !HeldRow(s, user, productId, i)
    ensures var r := AddItem(s, user, productId, quantity);
            && (r.result.Ok? <==>
                  1 <= quantity <= MaxPhpInt && quantity <= s.products[productId].stock
                  && s.products[productId].isActive)
            && (r.result.Ok? ==>
                  && r.result.value == Line(s.nextItem, quantity)
                  && r.state.items.Keys == s.items.Keys + {s.nextItem})
  {
    var p := s.products[productId];
    if 1 <= quantity <= MaxPhpInt && quantity <= p.stock && p.isActive {
      assert CountersFresh(s);
      NoRowYet(s, user, productId);
      InsertOutcome(s, user, productId, quantity);
    }
  }

  /** A first add of an available product inserts a row under the next row id. */
  lemma InsertOutcome(s: State, user: Id, productId: Id, quantity: int)
    requires productId in s.products
    requires 1 <= quantity <= MaxPhpInt && quantity <= s.products[productId].stock
    requires s.products[productId].isActive
    requires s.nextItem !in s.items
    requires var staged := StageCart(s, user, s.products[productId].storeId);
             FindRow(staged.0, staged.1, productId).None?
    ensures var r := AddItem(s, user, productId, quantity);
            && r.result == Ok(Line(s.nextItem, quantity))
            && r.state.items.Keys == s.items.Keys + {s.nextItem}
  {
    var p := s.products[productId];
    var (s1, c) := StageCart(s, user, p.storeId);
    var s2 := s1.(items := s.items[s.nextItem := CartItem(c, productId, quantity)], nextItem := s.nextItem + 1);
    assert Accumulate(s1, c, productId, quantity, p.stock) == Some((s2, Line(s.nextItem, quantity)));
    assert AddItem(s, user, productId, quantity) == Reply(Ok(Line(s.nextItem, quantity)), s2);
  }

  /** After `firstOrCreate`, the caller's cart holds no row for a product not held before. */
  lemma NoRowYet(s: State, user: Id, productId: Id)
    requires ItemsAttached(s) && CountersFresh(s)
    requires productId in s.products
    requires forall i :: i in s.items ==> !HeldRow(s, user, productId, i)
    ensures var staged := StageCart(s, user, s.products[productId].storeId);
            FindRow(staged.0, staged.1, productId).None?
  {
    var store := s.products[productId].storeId;
    var (s1, c) := StageCart(s, user, store);
    if FindCart(s, user, store).Some? {
      assert c in CartsFor(s, user, store);
      forall j | j in s.items && s.items[j].cartId == c
        ensures s.items[j].productId != productId
      {
        assert !HeldRow(s, user, productId, j);
      }
    } else {
      forall j | j in s.items
        ensures s.items[j].cartId != c
      {
        assert s.items[j].cartId in s.carts;
      }
    }
    assert RowsFor(s1, c, productId) == {};
  }

  lemma UpdateItemKeepsValid(s: State, user: Id, itemId: Id, quantity: int)
    requires Valid(s)
    ensures Valid(UpdateItem(s, user, itemId, quantity).state)
  {
    var r := UpdateItem(s, user, itemId, quantity);
    if r.result.Ok? {
      var items := s.items[itemId := s.items[itemId].(quantity := quantity)];
      assert r.state == s.(items := items);
      RequantifiedRows(s, items);
      OtherTablesKept(s, r.state);
      assert NoEmptyCart(r.state);
      assert IdsBelowCounters(r.state);
    }
  }

  lemma RemoveItemKeepsValid(s: State, user: Id, itemId: Id)
    requires Valid(s)
    ensures Valid(RemoveItem(s, user, itemId).state)
  {
    var s' := RemoveItem(s, user, itemId).state;
    if OwnedItem(s, user, itemId) {
      var c := s.items[itemId].cartId;
      forall d | d in s'.carts
        ensures HasItems(s'.items, d)
      {
        if d != c {
          var j :| j in s.items && s.items[j].cartId == d;
          assert j in s'.items;
        }
      }
      forall j | j in s'.items
        ensures s'.items[j].cartId in s'.carts
      {
        assert HasItems(s'.items, s'.items[j].cartId);
      }
    }
  }

  lemma ClearCartKeepsValid(s: State, user: Id, cartId: Id)
    requires Valid(s)
    ensures Valid(ClearCart(s, user, cartId).state)
  {
    var s' := ClearCart(s, user, cartId).state;
    if cartId in s.carts && s.carts[cartId].userId == user {
      forall d | d in s'.carts
        ensures HasItems(s'.items, d)
      {
        var j :| j in s.items && s.items[j].cartId == d;
        assert j in s'.items;
      }
    }
  }

  /** A cart that holds a row is listed with at least one line. */
  lemma RowsOfNonEmpty(s: State, c: Id)
    requires HasItems(s.items, c)
    requires forall i :: i in s.items ==> i < s.nextItem
    ensures |RowsOf(s, c)| >= 1
  {
    var j :| j in s.items && s.items[j].cartId == c;
    assert j in RowsOf(s, c);
  }

  /** Carts that hold rows are shown with at least one line each. */
  lemma ViewsNonEmpty(s: State, user: Id, cartIds: seq<Id>)
    requires forall k :: 0 <= k < |cartIds| ==> cartIds[k] in s.carts && s.carts[cartIds[k]].userId == user
    requires forall k :: 0 <= k < |cartIds| ==> HasItems(s.items, cartIds[k])
    requires forall i :: i in s.items ==> i < s.nextItem
    requires CartViews(s, user, cartIds).Ok?
    ensures forall k :: 0 <= k < |cartIds| ==> |CartViews(s, user, cartIds).value[k].items| >= 1
  {
    var views := CartViews(s, user, cartIds).value;
    forall k | 0 <= k < |cartIds|
      ensures |views[k].items| >= 1
    {
      RowsOfNonEmpty(s, cartIds[k]);
    }
  }

  /** One view per id, in order, covers every id the enumeration covers. */
  lemma ViewsCover(ids: seq<Id>, views: seq<CartView>, owned: set<Id>, bound: Id)
    requires |views| == |ids|
    requires forall k :: 0 <= k < |ids| ==> views[k].cartId == ids[k]
    requires forall c :: c in owned && c < bound ==> c in ids
    ensures forall c :: c in owned && c < bound ==> exists k :: 0 <= k < |views| && views[k].cartId == c
  {
    forall c | c in owned && c < bound
      ensures exists k :: 0 <= k < |views| && views[k].cartId == c
    {
      var k :| 0 <= k < |ids| && ids[k] == c;
      assert views[k].cartId == c;
    }
  }

  /** The listing shows exactly the caller's carts, and none of them empty. */
  lemma ListedCartsComplete(s: State, user: Id)
    requires NoEmptyCart(s) && IdsBelowCounters(s)
    requires ListCarts(s, user).Ok?
    ensures var views := ListCarts(s, user).value;
            && (forall k :: 0 <= k < |views| ==> |views[k].items| >= 1)
            && (forall c :: c in s.carts && s.carts[c].userId == user ==>
                  exists k :: 0 <= k < |views| && views[k].cartId == c)
  {
    ListCartsViews(s, user);
    ViewsComplete(s, user, Ascending(OwnedCarts(s, user), s.nextCart));
  }

  /** The views of the ascending enumeration of the caller's carts cover every one of
      them, each with a line. */
  lemma ViewsComplete(s: State, user: Id, mine: seq<Id>)
    requires NoEmptyCart(s) && IdsBelowCounters(s)
    requires mine == Ascending(OwnedCarts(s, user), s.nextCart)
    requires CartViews(s, user, mine).Ok?
    ensures var views := CartViews(s, user, mine).value;
            && (forall k :: 0 <= k < |views| ==> |views[k].items| >= 1)
            && (forall c :: c in s.carts && s.carts[c].userId == user ==>
                  exists k :: 0 <= k < |views| && views[k].cartId == c)
  {
    var owned := OwnedCarts(s, user);
    ViewsNonEmpty(s, user, mine);
    var views := CartViews(s, user, mine).value;
    ViewsCover(mine, views, owned, s.nextCart);
    forall c | c in s.carts && s.carts[c].userId == user
      ensures exists k :: 0 <= k < |views| && views[k].cartId == c
    {
      assert c in owned && c < s.nextCart;
    }
  }
}

=== FILE: carts.dfy ===
/** The shopping cart: one cart per (user, store), one row per (cart, product)
    whose quantity accumulates, and a cart that disappears with its last row.
    Listed subtotals and totals are computed from the products' current prices. */
module Carts {
  import opened Base
  import opened Domain
  import opened Invariants

  /** The caller's carts for a store. */
  function CartsFor(s: State, user: Id, store: Id): set<Id> {
    set c | c in s.carts && s.carts[c] == Cart(user, store)
  }

  /** The rows of a cart holding a product. */
  function RowsFor(s: State, cartId: Id, productId: Id): set<Id> {
    set i | i in s.items && s.items[i].cartId == cartId && s.items[i].productId == productId
  }

  /** `Cart::firstOrCreate` looks the cart up first; `None` means it will be created. */
  function FindCart(s: State, user: Id, store: Id): Option<Id> {
    Least(CartsFor(s, user, store), s.nextCart)
  }

  /** `CartItem::where(cart, product)->first()`. */
  function FindRow(s: State, cartId: Id, productId: Id): Option<Id> {
    Least(RowsFor(s, cartId, productId), s.nextItem)
  }

  /** What an add or update answers: the row and its quantity now. */
  datatype Line = Line(itemId: Id, quantity: int)

  /** The state after a successful add of `quantity` units of `productId` for `user`:
      the row for the product in the user's cart for the product's store holds `line`;
      an existing row grew by `quantity`, a new row holds exactly `quantity`; no other
      row changed, and apart from the carts and their counters no table or counter did. */
  predicate Added(s: State, s': State, user: Id, productId: Id, quantity: int, line: Line)
    requires productId in s.products
  {
    var p := s.products[productId];
    var i := line.itemId;
    && i in s'.items
    && s'.items[i].productId == productId
    && s'.items[i].quantity == line.quantity
    && line.quantity <= p.stock
    && s'.items[i].cartId in s'.carts
    && s'.carts[s'.items[i].cartId] == Cart(user, p.storeId)
    && (i in s.items ==> s.items[i].cartId == s'.items[i].cartId && s.items[i].productId == productId
                         && line.quantity == s.items[i].quantity + quantity)
    && (i !in s.items ==> line.quantity == quantity)
    && (forall j :: j in s.items && j != i ==> j in s'.items && s'.items[j] == s.items[j])
    && (forall j :: j in s'.items ==> j == i || j in s.items)
    && (forall c :: c in s.carts ==> c in s'.carts && s'.carts[c] == s.carts[c])
    && (forall c :: c in s'.carts ==> c in s.carts || c == s'.items[i].cartId)
    && s'.products == s.products && s'.orders == s.orders && s'.stores == s.stores
    && s'.nextProduct == s.nextProduct && s'.nextStore == s.nextStore && s'.nextOrder == s.nextOrder
  }

  /** `Cart::firstOrCreate([user, store])`: the state with the cart in place, and its id. */
  function StageCart(s: State, user: Id, store: Id): (r: (State, Id))
    ensures r.1 in r.0.carts && r.0.carts[r.1] == Cart(user, store)
    ensures CountersFresh(s) ==> forall c :: c in s.carts ==> c in r.0.carts && r.0.carts[c] == s.carts[c]
    ensures forall c :: c in r.0.carts ==> c == r.1 || c in s.carts
    ensures r.1 !in s.carts ==> r.1 == s.nextCart && r.0.nextCart == s.nextCart + 1
    ensures r.0 == s.(carts := r.0.carts, nextCart := r.0.nextCart)
  {
    match FindCart(s, user, store)
    case Some(c) => (s, c)
    case None =>
      var carts := s.carts[s.nextCart := Cart(user, store)];
      assert forall c :: c in carts ==> c == s.nextCart || c in s.carts;
      (s.(carts := carts, nextCart := s.nextCart + 1), s.nextCart)
  }

  /** The row update inside the transaction: an existing (cart, product) row grows by
      `quantity`, otherwise a row is inserted; `None` when the grown quantity exceeds `stock`. */
  function Accumulate(s: State, cartId: Id, productId: Id, quantity: int, stock: int): (r: Option<(State, Line)>)
    requires cartId in s.carts
    requires quantity <= stock
    ensures r.Some? && s.nextItem !in s.items ==>
              var (s', line) := r.value;
              var i := line.itemId;
              && i in s'.items && s'.items[i] == CartItem(cartId, productId, line.quantity)
              && line.quantity <= stock
              && (i in s.items ==> s.items[i].cartId == cartId && s.items[i].productId == productId
                                   && line.quantity == s.items[i].quantity + quantity)
              && (i !in s.items ==> line.quantity == quantity && i == s.nextItem)
              && (forall j :: j in s.items && j != i ==> j in s'.items && s'.items[j] == s.items[j])
              && (forall j :: j in s'.items ==> j == i || j in s.items)
              && s' == s.(items := s'.items, nextItem := s'.nextItem)
  {
    match FindRow(s, cartId, productId)
    case Some(i) =>
      var total := s.items[i].quantity + quantity;
      if stock < total then None
      else Some((s.(items := s.items[i := s.items[i].(quantity := total)]), Line(i, total)))
    case None =>
      var i := s.nextItem;
      Some((s.(items := s.items[i := CartItem(cartId, productId, quantity)], nextItem := i + 1), Line(i, quantity)))
  }

  /** `addItem`. Validation (known product, quantity a PHP integer ≥ 1), then the requested quantity
      against stock, then the active flag; inside the transaction the cart is found or
      created, and an existing row accumulates, rolling everything back if the sum
      exceeds stock. */
  function AddItem(s: State, user: Id, productId: Id, quantity: int): (r: Reply<Line>)
    ensures r.result.Err? ==> r.state == s
    ensures productId !in s.products || quantity < 1 || quantity > MaxPhpInt ==> r.result == Err(Invalid)
    ensures productId in s.products && 1 <= quantity <= MaxPhpInt && s.products[productId].stock < quantity ==>
              r.result == Err(OutOfStock(productId))
    ensures (productId in s.products && 1 <= quantity <= MaxPhpInt && quantity <= s.products[productId].stock
             && !s.products[productId].isActive) ==> r.result == Err(Unavailable(productId))
    ensures r.result.Ok? ==> productId in s.products && s.products[productId].isActive
    ensures (productId in s.products && 1 <= quantity <= MaxPhpInt && quantity <= s.products[productId].stock
             && s.products[productId].isActive && r.result.Err?) ==> r.result == Err(OutOfStock(productId))
    ensures r.result.Ok? && CountersFresh(s) ==> Added(s, r.state, user, productId, quantity, r.result.value)
  {
    if productId !in s.products || quantity < 1 || quantity > MaxPhpInt then Refuse(s, Invalid)
    else
      var p := s.products[productId];
      if p.stock < quantity then Refuse(s, OutOfStock(productId))
      else if !p.isActive then Refuse(s, Unavailable(productId))
      else
        var (s1, cartId) := StageCart(s, user, p.storeId);
        match Accumulate(s1, cartId, productId, quantity, p.stock)
        case None => Refuse(s, OutOfStock(productId))
        case Some((s2, line)) => Reply(Ok(line), s2)
  }

  /** `updateItem`: set an owned row's quantity to a new absolute value within stock.
      The quantity must be a PHP integer ≥ 1; the product's active flag is not consulted. */
  function UpdateItem(s: State, user: Id, itemId: Id, quantity: int): (r: Reply<Line>)
    ensures r.result.Err? ==> r.state == s
    ensures quantity < 1 || quantity > MaxPhpInt ==> r.result == Err(Invalid)
    ensures 1 <= quantity <= MaxPhpInt && !OwnedItem(s, user, itemId) ==> r.result == Err(Failed)
    ensures (1 <= quantity <= MaxPhpInt && OwnedItem(s, user, itemId)
             && s.items[itemId].productId !in s.products) ==> r.result == Err(Failed)
    ensures (1 <= quantity <= MaxPhpInt && OwnedItem(s, user, itemId)
             && s.items[itemId].productId in s.products
             && s.products[s.items[itemId].productId].stock < quantity) ==>
              r.result == Err(OutOfStock(s.items[itemId].productId))
    ensures r.result.Ok? <==>
              && 1 <= quantity <= MaxPhpInt && OwnedItem(s, user, itemId)
              && s.items[itemId].productId in s.products
              && quantity <= s.products[s.items[itemId].productId].stock
    ensures r.result.Ok? ==>
              && r.result.value == Line(itemId, quantity)
              && r.state == s.(items := s.items[itemId := s.items[itemId].(quantity := quantity)])
  {
    if quantity < 1 || quantity > MaxPhpInt then Refuse(s, Invalid)
    else if !OwnedItem(s, user, itemId) then Refuse(s, Failed)
    else
      var row := s.items[itemId];
      if row.productId !in s.products then Refuse(s, Failed)
      else if s.products[row.productId].stock < quantity then Refuse(s, OutOfStock(row.productId))
      else Reply(Ok(Line(itemId, quantity)), s.(items := s.items[itemId := row.(quantity := quantity)]))
  }

  /** `removeItem`: drop an owned row, and its cart once nothing else is in it. */
  function RemoveItem(s: State, user: Id, itemId: Id): (r: Reply<()>)
    ensures r.result.Err? ==> r.state == s
    ensures r.result.Ok? <==> OwnedItem(s, user, itemId)
    ensures r.result.Err? ==> r.result.error == Failed
    ensures r.result.Ok? ==>
              var c := s.items[itemId].cartId;
              && r.state == s.(items := s.items - {itemId}, carts := r.state.carts)
              && (c in r.state.carts <==> HasItems(r.state.items, c))
              && (forall d :: d in s.carts && d != c ==> d in r.state.carts && r.state.carts[d] == s.carts[d])
              && (forall d :: d in r.state.carts ==> d in s.carts && r.state.carts[d] == s.carts[d])
  {
    if !OwnedItem(s, user, itemId) then Refuse(s, Failed)
    else
      var c := s.items[itemId].cartId;
      var rest := s.items - {itemId};
      Reply(Ok(()), s.(items := rest, carts := if HasItems(rest, c) then s.carts else s.carts - {c}))
  }

  /** `clearCart`: drop every row of an owned cart and then the cart. */
  function ClearCart(s: State, user: Id, cartId: Id): (r: Reply<()>)
    ensures r.result.Err? ==> r.state == s
    ensures r.result.Ok? <==> cartId in s.carts && s.carts[cartId].userId == user
    ensures r.result.Err? ==> r.result.error == Failed
    ensures r.result.Ok? ==>
              && r.state == s.(items := r.state.items, carts := s.carts - {cartId})
              && !HasItems(r.state.items, cartId)
              && (forall i :: i in s.items && s.items[i].cartId != cartId ==>
                    i in r.state.items && r.state.items[i] == s.items[i])
              && (forall i :: i in r.state.items ==> i in s.items)
  {
    if cartId !in s.carts || s.carts[cartId].userId != user then Refuse(s, Failed)
    else
      Reply(Ok(()), s.(items := map i | i in s.items && s.items[i].cartId != cartId :: s.items[i],
                       carts := s.carts - {cartId}))
  }

  // ---------------------------------------------------------------- listing

  datatype ItemView = ItemView(itemId: Id, productId: Id, price: int, quantity: int, subtotal: int)
  datatype CartView = CartView(cartId: Id, storeId: Id, items: seq<ItemView>, total: int)

  function SumViews(views: seq<ItemView>): int {
    if |views| == 0 then 0 else views[0].subtotal + SumViews(views[1..])
  }

  /** A listed cart as the caller must see it: the caller's cart, each row of that
      cart priced at the product's current price, and a total that is the sum of the
      row subtotals. */
  predicate Priced(s: State, user: Id, v: CartView) {
    && v.cartId in s.carts && s.carts[v.cartId] == Cart(user, v.storeId)
    && v.total == SumViews(v.items)
    && forall j :: 0 <= j < |v.items| ==>
         var iv := v.items[j];
         && iv.itemId in s.items
         && s.items[iv.itemId] == CartItem(v.cartId, iv.productId, iv.quantity)
         && iv.productId in s.products
         && iv.price == s.products[iv.productId].price
         && iv.subtotal == iv.price * iv.quantity
  }

  predicate AllPriced(products: map<Id, Product>, items: map<Id, CartItem>, ids: seq<Id>)
    requires forall k :: 0 <= k < |ids| ==> ids[k] in items
  {
    forall k :: 0 <= k < |ids| ==> items[ids[k]].productId in products
  }

  /** The rows of cart `cartId`. */
  function CartRows(s: State, cartId: Id): set<Id> {
    set i | i in s.items && s.items[i].cartId == cartId
  }

  /** The rows of one cart, ascending. */
  function RowsOf(s: State, cartId: Id): (r: seq<Id>)
    ensures forall k :: 0 <= k < |r| ==> r[k] in s.items && s.items[r[k]].cartId == cartId
  {
    Ascending(CartRows(s, cartId), s.nextItem)
  }

  /** The enumeration holds exactly the cart's rows below the row counter. */
  lemma RowsOfSpan(s: State, cartId: Id)
    ensures forall k :: 0 <= k < |RowsOf(s, cartId)| ==> RowsOf(s, cartId)[k] < s.nextItem
    ensures forall i :: i in CartRows(s, cartId) && i < s.nextItem ==> i in RowsOf(s, cartId)
  {
  }

  /** Each row with its product's current price. */
  function ItemViews(s: State, ids: seq<Id>): (r: seq<ItemView>)
    requires forall k :: 0 <= k < |ids| ==> ids[k] in s.items
    requires AllPriced(s.products, s.items, ids)
    ensures |r| == |ids|
    ensures forall k :: 0 <= k < |ids| ==>
              var row := s.items[ids[k]];
              r[k] == ItemView(ids[k], row.productId, s.products[row.productId].price, row.quantity,
                               s.products[row.productId].price * row.quantity)
  {
    if |ids| == 0 then []
    else
      var row := s.items[ids[0]];
      var price := s.products[row.productId].price;
      [ItemView(ids[0], row.productId, price, row.quantity, price * row.quantity)] + ItemViews(s, ids[1..])
  }

  /** The `sum(price × quantity)` closure of the listing, computed apart from the rows. */
  function LiveTotal(s: State, ids: seq<Id>): int
    requires forall k :: 0 <= k < |ids| ==> ids[k] in s.items
    requires AllPriced(s.products, s.items, ids)
  {
    if |ids| == 0 then 0
    else
      var row := s.items[ids[0]];
      s.products[row.productId].price * row.quantity + LiveTotal(s, ids[1..])
  }

  lemma {:induction false} LiveTotalIsSumOfSubtotals(s: State, ids: seq<Id>)
    requires forall k :: 0 <= k < |ids| ==> ids[k] in s.items
    requires AllPriced(s.products, s.items, ids)
    ensures LiveTotal(s, ids) == SumViews(ItemViews(s, ids))
  {
    if |ids| > 0 {
      LiveTotalIsSumOfSubtotals(s, ids[1..]);
      var views := ItemViews(s, ids);
      assert views[1..] == ItemViews(s, ids[1..]);
    }
  }

  function CartViews(s: State, user: Id, cartIds: seq<Id>): (r: Result<seq<CartView>>)
    requires forall k :: 0 <= k < |cartIds| ==> cartIds[k] in s.carts && s.carts[cartIds[k]].userId == user
    ensures r.Ok? ==> |r.value| == |cartIds|
    ensures r.Ok? ==> forall k :: 0 <= k < |cartIds| ==>
              && AllPriced(s.products, s.items, RowsOf(s, cartIds[k]))
              && r.value[k].cartId == cartIds[k]
              && r.value[k].items == ItemViews(s, RowsOf(s, cartIds[k]))
    ensures r.Ok? ==> forall k :: 0 <= k < |cartIds| ==> Priced(s, user, r.value[k])
    ensures r.Err? ==> r.error == Failed
    ensures r.Err? ==> exists k :: 0 <= k < |cartIds| && !AllPriced(s.products, s.items, RowsOf(s, cartIds[k]))
  {
    if |cartIds| == 0 then Ok([])
    else
      var c := cartIds[0];
      var ids := RowsOf(s, c);
      if !AllPriced(s.products, s.items, ids) then Err(Failed)
      else
        match CartViews(s, user, cartIds[1..])
        case Err(e) => Err(e)
        case Ok(rest) =>
          var view := CartView(c, s.carts[c].storeId, ItemViews(s, ids), LiveTotal(s, ids));
          ViewPriced(s, user, c);
          assert forall k :: 1 <= k < |cartIds| ==> ([view] + rest)[k] == rest[k - 1] && cartIds[k] == cartIds[1..][k - 1];
          Ok([view] + rest)
  }

  /** One cart's view, priced from its rows. */
  lemma ViewPriced(s: State, user: Id, c: Id)
    requires c in s.carts && s.carts[c].userId == user
    requires AllPriced(s.products, s.items, RowsOf(s, c))
    ensures Priced(s, user, CartView(c, s.carts[c].storeId, ItemViews(s, RowsOf(s, c)), LiveTotal(s, RowsOf(s, c))))
  {
    LiveTotalIsSumOfSubtotals(s, RowsOf(s, c));
  }

  /** The caller's carts. */
  function OwnedCarts(s: State, user: Id): set<Id> {
    set c | c in s.carts && s.carts[c].userId == user
  }

  /** `index`: the caller's carts, ascending, each with its rows priced now. A row whose
      product has been deleted makes the listing raise; nothing else does. */
  function ListCarts(s: State, user: Id): (r: Result<seq<CartView>>)
    ensures r.Ok? <==> forall i: Id :: OwnedItem(s, user, i) && i < s.nextItem && s.items[i].cartId < s.nextCart ==>
              s.items[i].productId in s.products
    ensures r.Ok? ==> forall k :: 0 <= k < |r.value| ==> Priced(s, user, r.value[k])
    ensures r.Err? ==> r.error == Failed
  {
    var mine := Ascending(OwnedCarts(s, user), s.nextCart);
    ListedRowsPriced(s, user, mine);
    CartViews(s, user, mine)
  }

  /** The listing is the views of the caller's carts, ascending. */
  lemma ListCartsViews(s: State, user: Id)
    ensures ListCarts(s, user) == CartViews(s, user, Ascending(OwnedCarts(s, user), s.nextCart))
  {
  }

  /** Every row of the listed carts has its product exactly when every listed row of the
      caller does. */
  lemma ListedRowsPriced(s: State, user: Id, mine: seq<Id>)
    requires mine == Ascending(OwnedCarts(s, user), s.nextCart)
    ensures (forall k :: 0 <= k < |mine| ==> AllPriced(s.products, s.items, RowsOf(s, mine[k])))
            <==> (forall i: Id :: OwnedItem(s, user, i) && i < s.nextItem && s.items[i].cartId < s.nextCart ==>
                    s.items[i].productId in s.products)
  {
    if forall k :: 0 <= k < |mine| ==> AllPriced(s.products, s.items, RowsOf(s, mine[k])) {
      forall i: Id | OwnedItem(s, user, i) && i < s.nextItem && s.items[i].cartId < s.nextCart
        ensures s.items[i].productId in s.products
      {
        ListedRowPriced(s, user, mine, i);
      }
    } else {
      var k :| 0 <= k < |mine| && !AllPriced(s.products, s.items, RowsOf(s, mine[k]));
      UnpricedListedRow(s, user, mine, k);
    }
  }

  /** A listed row of the caller sits in one of the listed carts' enumerations. */
  lemma ListedRowPriced(s: State, user: Id, mine: seq<Id>, i: Id)
    requires mine == Ascending(OwnedCarts(s, user), s.nextCart)
    requires forall k :: 0 <= k < |mine| ==> AllPriced(s.products, s.items, RowsOf(s, mine[k]))
    requires OwnedItem(s, user, i) && i < s.nextItem && s.items[i].cartId < s.nextCart
    ensures s.items[i].productId in s.products
  {
    var c := s.items[i].cartId;
    assert c in OwnedCarts(s, user);
    var k :| 0 <= k < |mine| && mine[k] == c;
    assert i in CartRows(s, c);
    RowsOfSpan(s, c);
    var rows := RowsOf(s, c);
    var j :| 0 <= j < |rows| && rows[j] == i;
    assert AllPriced(s.products, s.items, rows);
  }

  /** A listed cart with an unpriced row gives a row of the caller without its product. */
  lemma UnpricedListedRow(s: State, user: Id, mine: seq<Id>, k: nat)
    requires mine == Ascending(OwnedCarts(s, user), s.nextCart)
    requires k < |mine| && !AllPriced(s.products, s.items, RowsOf(s, mine[k]))
    ensures exists i: Id :: OwnedItem(s, user, i) && i < s.nextItem && s.items[i].cartId < s.nextCart &&
              s.items[i].productId !in s.products
  {
    var rows := RowsOf(s, mine[k]);
    var j :| 0 <= j < |rows| && s.items[rows[j]].productId !in s.products;
    RowsOfSpan(s, mine[k]);
    assert mine[k] in OwnedCarts(s, user);
    assert OwnedItem(s, user, rows[j]);
  }

}

=== FILE: catalog.dfy ===
/** Merchant edits to the catalogue (create, update, delete a product) and the
    read paths that answer not-found. Price, stock and the active flag set here
    are what checkout later reads. Photo upload is not modelled. */
module Catalog {
  import opened Base
  import opened Domain
  import opened Invariants

  /** A request field that may be missing, sent as null, or carry a value. */
  datatype Field<+T> = Absent | Null | Given(value: T)

  /** The value a `$validated['x'] ?? $prior` merge keeps. */
  function Merge<T>(f: Field<T>, prior: T): T {
    if f.Given? then f.value else prior
  }

  /** Columns the product listing may be sorted on. */
  const SortKeys: seq<string> := ["id", "name", "price", "stock", "category", "created_at"]

  /** The listing's sort column: a key outside the whitelist falls back to `id`. */
  function SortKey(requested: string): (r: string)
    ensures r in SortKeys
    ensures requested in SortKeys <==> r == requested
    ensures requested !in SortKeys ==> r == "id"
  {
    if requested in SortKeys then requested else "id"
  }

  /** Does a column of width `width` hold the optional text? */
  predicate Fits(text: Option<string>, width: nat) {
    text.None? || |text.value| <= width
  }

  /** `show`: the product, or not-found. */
  function ShowProduct(s: State, id: Id): (r: Result<Product>)
    ensures r.Ok? <==> id in s.products
    ensures r.Ok? ==> r.value == s.products[id]
    ensures r.Err? ==> r.error == NotFound
  {
    if id in s.products then Ok(s.products[id]) else Err(NotFound)
  }

  /** `getByStoreId`: the ids of a store's products, ascending; not-found for an unknown
      store and for a store without products. */
  function StoreProducts(s: State, storeId: Id): (r: Result<seq<Id>>)
    ensures storeId !in s.stores ==> r == Err(NotFound)
    ensures r.Ok? <==> (storeId in s.stores &&
              exists p :: p in s.products && p < s.nextProduct && s.products[p].storeId == storeId)
    ensures r.Ok? ==> storeId in s.stores && |r.value| > 0
    ensures r.Ok? ==> forall k :: 0 <= k < |r.value| ==>
              r.value[k] in s.products && s.products[r.value[k]].storeId == storeId
    ensures r.Ok? ==> forall p :: p in s.products && p < s.nextProduct && s.products[p].storeId == storeId ==>
              p in r.value
    ensures r.Err? ==> r.error == NotFound
  {
    if storeId !in s.stores then Err(NotFound)
    else
      var ids := Ascending((set p | p in s.products && s.products[p].storeId == storeId), s.nextProduct);
      if |ids| == 0 then
        assert forall p :: p in s.products && p < s.nextProduct && s.products[p].storeId == storeId ==> p in ids;
        Err(NotFound)
      else
        assert ids[0] in s.products && ids[0] < s.nextProduct && s.products[ids[0]].storeId == storeId;
        Ok(ids)
  }

  /** The body of a create request; `isActive` may be left out. */
  datatype NewProduct = NewProduct(
    storeId: Id,
    name: string,
    description: Option<string>,
    price: int,
    stock: int,
    category: Option<string>,
    isActive: Option<bool>)

  /** The create request passes validation: existing store, a name of 1 to 100
      characters, price ≥ 0, stock a PHP integer ≥ 0. */
  predicate NewProductValid(s: State, req: NewProduct) {
    req.storeId in s.stores && 0 < |req.name| <= MaxName && 0 <= req.price && 0 <= req.stock <= MaxPhpInt
  }

  /** The validated values also fit their columns (otherwise the insert raises). */
  predicate NewProductFits(req: NewProduct) {
    req.price <= MaxPrice && req.stock <= MaxStock && Fits(req.category, MaxCategory)
  }

  /** `store`: insert a product; it is active unless the request says otherwise. */
  function CreateProduct(s: State, req: NewProduct): (r: Reply<Id>)
    ensures r.result.Err? ==> r.state == s
    ensures !NewProductValid(s, req) ==> r.result == Err(Invalid)
    ensures r.result.Ok? <==> NewProductValid(s, req) && NewProductFits(req)
    ensures r.result.Ok? ==>
              var id := r.result.value;
              && id == s.nextProduct && id in r.state.products
              && r.state == s.(products := s.products[id := r.state.products[id]], nextProduct := id + 1)
              && r.state.products[id].storeId == req.storeId
              && r.state.products[id].price == req.price
              && r.state.products[id].stock == req.stock
              && r.state.products[id].name == req.name
              && r.state.products[id].description == req.description
              && r.state.products[id].category == req.category
              && (r.state.products[id].isActive <==> req.isActive != Some(false))
  {
    if !NewProductValid(s, req) then Refuse(s, Invalid)
    else if !NewProductFits(req) then Refuse(s, Failed)
    else
      var id := s.nextProduct;
      var p := Product(req.storeId, req.name, req.description, req.price, req.stock, req.category,
                       req.isActive.GetOr(true));
      Reply(Ok(id), s.(products := s.products[id := p], nextProduct := id + 1))
  }

  /** The body of an update request: every field is optional. */
  datatype ProductPatch = ProductPatch(
    name: Field<string>,
    description: Field<string>,
    price: Field<int>,
    stock: Field<int>,
    category: Field<string>,
    isActive: Field<bool>)

  /** Validation of an update: `sometimes` skips a missing field, but a null sent for a
      field not marked `nullable` fails its type rule. Description and category are nullable. */
  predicate PatchValid(patch: ProductPatch) {
    && !patch.name.Null? && !patch.price.Null? && !patch.stock.Null? && !patch.isActive.Null?
    && (patch.name.Given? ==> |patch.name.value| <= MaxName)
    && (patch.price.Given? ==> 0 <= patch.price.value)
    && (patch.stock.Given? ==> 0 <= patch.stock.value <= MaxPhpInt)
  }

  /** The row after the merge: a field changes only when the request gives it a value. */
  function Patched(prior: Product, patch: ProductPatch): Product {
    prior.(
      name := Merge(patch.name, prior.name),
      description := if patch.description.Given? then Some(patch.description.value) else prior.description,
      price := Merge(patch.price, prior.price),
      stock := Merge(patch.stock, prior.stock),
      category := if patch.category.Given? then Some(patch.category.value) else prior.category,
      isActive := Merge(patch.isActive, prior.isActive))
  }

  predicate ProductFits(p: Product) {
    p.price <= MaxPrice && p.stock <= MaxStock && Fits(p.category, MaxCategory)
  }

  /** `update`: not-found first, then validation, then the merge. */
  function UpdateProduct(s: State, id: Id, patch: ProductPatch): (r: Reply<Product>)
    ensures r.result.Err? ==> r.state == s
    ensures id !in s.products ==> r.result == Err(NotFound)
    ensures id in s.products && !PatchValid(patch) ==> r.result == Err(Invalid)
    ensures r.result.Ok? <==> id in s.products && PatchValid(patch) && ProductFits(Patched(s.products[id], patch))
    ensures r.result.Ok? ==>
              var prior := s.products[id];
              var edited := r.result.value;
              && edited == Patched(prior, patch)
              && r.state == s.(products := s.products[id := edited])
              && edited.storeId == prior.storeId
              && (patch.price.Given? ==> edited.price == patch.price.value)
              && (!patch.price.Given? ==> edited.price == prior.price)
              && (patch.stock.Given? ==> edited.stock == patch.stock.value)
              && (!patch.stock.Given? ==> edited.stock == prior.stock)
              && (patch.isActive.Given? ==> edited.isActive == patch.isActive.value)
              && (!patch.isActive.Given? ==> edited.isActive == prior.isActive)
              && (patch.name.Given? ==> edited.name == patch.name.value)
              && (!patch.name.Given? ==> edited.name == prior.name)
              && (patch.description.Given? ==> edited.description == Some(patch.description.value))
              && (!patch.description.Given? ==> edited.description == prior.description)
              && (patch.category.Given? ==> edited.category == Some(patch.category.value))
              && (!patch.category.Given? ==> edited.category == prior.category)
  {
    if id !in s.products then Refuse(s, NotFound)
    else if !PatchValid(patch) then Refuse(s, Invalid)
    else
      var edited := Patched(s.products[id], patch);
      if !ProductFits(edited) then Refuse(s, Failed)
      else Reply(Ok(edited), s.(products := s.products[id := edited]))
  }

  /** `destroy`: not-found, or the row is gone. Rows of other tables are left as they are. */
  function DestroyProduct(s: State, id: Id): (r: Reply<()>)
    ensures r.result.Err? ==> r.state == s
    ensures r.result.Ok? <==> id in s.products
    ensures r.result.Err? ==> r.result.error == NotFound
    ensures r.result.Ok? ==> r.state == s.(products := s.products - {id})
  {
    if id !in s.products then Refuse(s, NotFound)
    else Reply(Ok(()), s.(products := s.products - {id}))
  }

  /** Merchant edits keep stock within 0 .. MaxStock and every other invariant. */
  lemma CreateProductKeepsValid(s: State, req: NewProduct)
    requires Valid(s)
    ensures Valid(CreateProduct(s, req).state)
  {
  }

  lemma UpdateProductKeepsValid(s: State, id: Id, patch: ProductPatch)
    requires Valid(s)
    ensures Valid(UpdateProduct(s, id, patch).state)
  {
  }

  lemma DestroyProductKeepsValid(s: State, id: Id)
    requires Valid(s)
    ensures Valid(DestroyProduct(s, id).state)
  {
  }

  /** A product created without `is_active` is on sale. */
  lemma CreatedProductActiveByDefault(s: State, req: NewProduct)
    requires req.isActive.None?
    requires CreateProduct(s, req).result.Ok?
    ensures CreateProduct(s, req).state.products[CreateProduct(s, req).result.value].isActive
  {
  }
}

=== FILE: checkout.dfy ===
/** Checkout: a whole cart, or a selection of the caller's rows from one store,
    becomes one pending order. Each selected row is checked (stock first, then the
    active flag), the total is summed, the order and its lines are written with the
    product's name and price copied in, stock is lowered, and the consumed rows —
    and any cart left empty — are deleted. A refusal rolls everything back. */
module Checkouts {
  import opened Base
  import opened Domain
  import opened Stock
  import opened Carts

  /** A selected cart row as the query loaded it before the transaction began. */
  datatype Pick = Pick(itemId: Id, cartId: Id, productId: Id, quantity: int)

  /** What a successful checkout answers. */
  datatype Receipt = Receipt(orderId: Id, totalPrice: int, status: Status)

  /** The picks are the rows of `s.items` they name, in strictly ascending id order. */
  predicate Loaded(s: State, picks: seq<Pick>) {
    && (forall k :: 0 <= k < |picks| ==>
          && picks[k].itemId in s.items
          && s.items[picks[k].itemId] == CartItem(picks[k].cartId, picks[k].productId, picks[k].quantity))
    && (forall j, k :: 0 <= j < k < |picks| ==> picks[j].itemId < picks[k].itemId)
  }

  /** Load the rows named by ascending `ids`. */
  function Snapshot(s: State, ids: seq<Id>): (r: seq<Pick>)
    requires forall k :: 0 <= k < |ids| ==> ids[k] in s.items
    requires forall j, k :: 0 <= j < k < |ids| ==> ids[j] < ids[k]
    ensures |r| == |ids| && Loaded(s, r)
    ensures forall k :: 0 <= k < |ids| ==> r[k].itemId == ids[k]
  {
    seq(|ids|, k requires 0 <= k < |ids| =>
      Pick(ids[k], s.items[ids[k]].cartId, s.items[ids[k]].productId, s.items[ids[k]].quantity))
  }

  predicate Listed(products: map<Id, Product>, picks: seq<Pick>) {
    forall k :: 0 <= k < |picks| ==> picks[k].productId in products
  }

  /** A row checkout accepts: its product exists, has the stock, and is on sale. */
  predicate Buyable(products: map<Id, Product>, pk: Pick) {
    && pk.productId in products
    && pk.quantity <= products[pk.productId].stock
    && products[pk.productId].isActive
  }

  /** Why a row is refused: a vanished product raises; short stock is reported before inactivity. */
  function RefusalOf(products: map<Id, Product>, pk: Pick): Error {
    if pk.productId !in products then Failed
    else if products[pk.productId].stock < pk.quantity then OutOfStock(pk.productId)
    else Unavailable(pk.productId)
  }

  /** The validation loop: the first refused row, in order, decides the answer. */
  function Refusal(products: map<Id, Product>, picks: seq<Pick>): (r: Option<Error>)
    ensures r.None? <==> forall k :: 0 <= k < |picks| ==> Buyable(products, picks[k])
    ensures r.Some? ==> exists k :: 0 <= k < |picks| && !Buyable(products, picks[k])
                          && r.value == RefusalOf(products, picks[k])
                          && forall j :: 0 <= j < k ==> Buyable(products, picks[j])
  {
    if |picks| == 0 then None
    else if !Buyable(products, picks[0]) then Some(RefusalOf(products, picks[0]))
    else
      var rest := Refusal(products, picks[1..]);
      assert forall k :: 1 <= k < |picks| ==> picks[k] == picks[1..][k - 1];
      if rest.Some? then
        assert exists k :: 1 <= k < |picks| && !Buyable(products, picks[k])
                 && rest.value == RefusalOf(products, picks[k])
                 && forall j :: 0 <= j < k ==> Buyable(products, picks[j]) by {
          var k :| 0 <= k < |picks[1..]| && !Buyable(products, picks[1..][k])
                   && rest.value == RefusalOf(products, picks[1..][k])
                   && forall j :: 0 <= j < k ==> Buyable(products, picks[1..][j]);
          assert forall j :: 0 <= j < k + 1 ==> Buyable(products, picks[j]) by {
            forall j | 0 <= j < k + 1 ensures Buyable(products, picks[j]) {
              if j > 0 { assert picks[j] == picks[1..][j - 1]; }
            }
          }
        }
        rest
      else rest
  }

  /** The order line for a row: the product's current name and price, copied. */
  function LineFor(products: map<Id, Product>, pk: Pick): OrderLine
    requires pk.productId in products
  {
    var p := products[pk.productId];
    OrderLine(pk.productId, p.name, p.price, pk.quantity, p.price * pk.quantity)
  }

  function Lines(products: map<Id, Product>, picks: seq<Pick>): (r: seq<OrderLine>)
    requires Listed(products, picks)
    ensures |r| == |picks|
    ensures forall k :: 0 <= k < |picks| ==> r[k] == LineFor(products, picks[k])
  {
    seq(|picks|, k requires 0 <= k < |picks| => LineFor(products, picks[k]))
  }

  /** The running total of the validation loop, `Σ price × quantity`. */
  function Total(products: map<Id, Product>, picks: seq<Pick>): int
    requires Listed(products, picks)
  {
    if |picks| == 0 then 0
    else products[picks[0].productId].price * picks[0].quantity + Total(products, picks[1..])
  }

  /** The total computed while validating equals the sum of the subtotals written afterwards. */
  lemma {:induction false} TotalIsSumOfSubtotals(products: map<Id, Product>, picks: seq<Pick>)
    requires Listed(products, picks)
    ensures Total(products, picks) == SumSubtotals(Lines(products, picks))
  {
    if |picks| > 0 {
      TotalIsSumOfSubtotals(products, picks[1..]);
      assert Lines(products, picks)[1..] == Lines(products, picks[1..]);
    }
  }

  /** The order a successful checkout wrote: a fresh pending order of `user` at `store`
      whose lines copy each row's product name and price at this moment, whose total
      is the sum of the line subtotals, and after which every product's stock is
      lower by what the lines record. Nothing else among orders, products or stores changes. */
  ghost predicate Placed(s: State, s': State, user: Id, store: Id, picks: seq<Pick>, receipt: Receipt) {
    var id := receipt.orderId;
    && id == s.nextOrder && s'.nextOrder == s.nextOrder + 1
    && id in s'.orders
    && (forall o :: o in s.orders && o != id ==> o in s'.orders && s'.orders[o] == s.orders[o])
    && (forall o :: o in s'.orders ==> o == id || o in s.orders)
    && var order := s'.orders[id];
    && order.userId == user && order.storeId == store && order.status == Pending
    && receipt.status == Pending && receipt.totalPrice == order.totalPrice
    && order.totalPrice == SumSubtotals(order.lines)
    && |order.lines| == |picks|
    && (forall k :: 0 <= k < |picks| ==>
          && picks[k].productId in s.products
          && order.lines[k].productId == picks[k].productId
          && order.lines[k].productName == s.products[picks[k].productId].name
          && order.lines[k].priceAtPurchase == s.products[picks[k].productId].price
          && order.lines[k].quantity == picks[k].quantity
          && order.lines[k].subtotal == order.lines[k].priceAtPurchase * order.lines[k].quantity)
    && s'.products.Keys == s.products.Keys
    && (forall p :: p in s.products ==>
          s'.products[p] == s.products[p].(stock := s.products[p].stock - Ordered(order.lines, p)))
    && s'.stores == s.stores
    && s'.nextProduct == s.nextProduct && s'.nextStore == s.nextStore
    && s'.nextCart == s.nextCart && s'.nextItem == s.nextItem
  }

  /** Steps 2–4 of the transaction: write the order and its lines, lower the stock. */
  function Place(s: State, user: Id, store: Id, picks: seq<Pick>): (r: (State, Receipt))
    requires Listed(s.products, picks)
    ensures Placed(s, r.0, user, store, picks, r.1)
    ensures r.0.items == s.items && r.0.carts == s.carts
  {
    var lines := Lines(s.products, picks);
    var total := Total(s.products, picks);
    TotalIsSumOfSubtotals(s.products, picks);
    var id := s.nextOrder;
    var order := Order(user, store, Pending, total, lines);
    (s.(orders := s.orders[id := order], nextOrder := id + 1, products := Deplete(s.products, lines)),
     Receipt(id, total, Pending))
  }

  /** What `Placed` says is untouched by the later changes to carts and rows. */
  lemma PlacedThenConsumed(s: State, s1: State, user: Id, store: Id, picks: seq<Pick>, receipt: Receipt,
                           items: map<Id, CartItem>, carts: map<Id, Cart>)
    requires Placed(s, s1, user, store, picks, receipt)
    ensures Placed(s, s1.(items := items, carts := carts), user, store, picks, receipt)
  {
  }

  /** The rows of a cart as full checkout loads them. */
  function CartPicks(s: State, cartId: Id): seq<Pick> {
    Snapshot(s, RowsOf(s, cartId))
  }

  /** Every selected row can be bought, and there is at least one. */
  predicate Sellable(s: State, picks: seq<Pick>) {
    |picks| > 0 && forall k :: 0 <= k < |picks| ==> Buyable(s.products, picks[k])
  }

  /** The whole cart's rows and the cart itself are gone; every other row and cart is untouched. */
  ghost predicate CartConsumed(s: State, s': State, cartId: Id) {
    && s'.carts == s.carts - {cartId}
    && (forall i :: i in s'.items <==> i in s.items && s.items[i].cartId != cartId)
    && (forall i :: i in s'.items ==> s'.items[i] == s.items[i])
  }

  /** `checkout`: the whole of one of the caller's carts becomes an order. */
  function Checkout(s: State, user: Id, cartId: Id): (r: Reply<Receipt>)
    ensures r.result.Err? ==> r.state == s
    ensures cartId !in s.carts ==> r.result == Err(Invalid)
    ensures cartId in s.carts && s.carts[cartId].userId != user ==> r.result == Err(Failed)
    ensures cartId in s.carts && s.carts[cartId].userId == user && |CartPicks(s, cartId)| == 0 ==>
              r.result == Err(EmptyCart)
    ensures (cartId in s.carts && s.carts[cartId].userId == user && |CartPicks(s, cartId)| > 0
             && Refusal(s.products, CartPicks(s, cartId)).Some?) ==>
              r.result == Err(Refusal(s.products, CartPicks(s, cartId)).value)
    ensures r.result.Ok? <==>
              cartId in s.carts && s.carts[cartId].userId == user && Sellable(s, CartPicks(s, cartId))
    ensures r.result.Ok? ==>
              && Placed(s, r.state, user, s.carts[cartId].storeId, CartPicks(s, cartId), r.result.value)
              && CartConsumed(s, r.state, cartId)
  {
    if cartId !in s.carts then Refuse(s, Invalid)
    else if s.carts[cartId].userId != user then Refuse(s, Failed)
    else
      var picks := CartPicks(s, cartId);
      if |picks| == 0 then Refuse(s, EmptyCart)
      else
        match Refusal(s.products, picks)
        case Some(e) => Refuse(s, e)
        case None =>
          var (s1, receipt) := Place(s, user, s.carts[cartId].storeId, picks);
          var items := map i | i in s1.items && s1.items[i].cartId != cartId :: s1.items[i];
          PlacedThenConsumed(s, s1, user, s.carts[cartId].storeId, picks, receipt, items, s1.carts - {cartId});
          Reply(Ok(receipt), s1.(items := items, carts := s1.carts - {cartId}))
  }

  // ------------------------------------------------------------ partial checkout

  /** The requested rows that sit in the caller's own carts. */
  function Selected(s: State, user: Id, requested: seq<Id>): set<Id> {
    set i | i in requested && OwnedItem(s, user, i)
  }

  /** The stores of the selected rows' carts. */
  function SelectedStores(s: State, user: Id, requested: seq<Id>): set<Id> {
    set i | i in requested && OwnedItem(s, user, i) :: s.carts[s.items[i].cartId].storeId
  }

  /** The request passes validation: a non-empty list of existing row ids. */
  predicate RequestValid(s: State, requested: seq<Id>) {
    |requested| > 0 && forall i :: i in requested ==> i in s.items
  }

  /** The selected rows, ascending, as partial checkout loads them. */
  function SelectedPicks(s: State, user: Id, requested: seq<Id>): (r: seq<Pick>)
    ensures Loaded(s, r)
    ensures PickedIds(r) == Selected(s, user, requested)
  {
    var chosen := Selected(s, user, requested);
    var ids := Ascending(chosen, Bound(requested));
    assert forall i :: i in chosen ==> i in ids by {
      forall i | i in chosen ensures i in ids {
        var k :| 0 <= k < |requested| && requested[k] == i;
      }
    }
    var picks := Snapshot(s, ids);
    assert PickedIds(picks) == chosen by {
      forall i | i in chosen ensures i in PickedIds(picks) {
        var k :| 0 <= k < |ids| && ids[k] == i;
        assert picks[k].itemId == i;
      }
    }
    picks
  }

  /** Which picks name row `i`, and which cart `c`. */
  function PickedIds(picks: seq<Pick>): set<Id> {
    set k | 0 <= k < |picks| :: picks[k].itemId
  }

  predicate Touched(picks: seq<Pick>, c: Id) {
    exists k :: 0 <= k < |picks| && picks[k].cartId == c
  }

  /** Step 5 of partial checkout, row by row: delete the row, then its cart if no row of it remains. */
  function Consume(items: map<Id, CartItem>, carts: map<Id, Cart>, picks: seq<Pick>): (map<Id, CartItem>, map<Id, Cart>)
  {
    if |picks| == 0 then (items, carts)
    else
      var rest := items - {picks[0].itemId};
      var c := picks[0].cartId;
      Consume(rest, if HasItems(rest, c) then carts else carts - {c}, picks[1..])
  }

  /** The picks were loaded from `items`: a row still present has the cart the pick recorded. */
  predicate Coherent(items: map<Id, CartItem>, picks: seq<Pick>) {
    forall k :: 0 <= k < |picks| && picks[k].itemId in items ==> items[picks[k].itemId].cartId == picks[k].cartId
  }

  /** Row by row deletion ends where a bulk description says: the picked rows are gone,
      and a touched cart survives exactly when some row of it is left. */
  lemma {:induction false} ConsumeRemovesPicked(items: map<Id, CartItem>, carts: map<Id, Cart>, picks: seq<Pick>)
    requires Coherent(items, picks)
    ensures var (items', carts') := Consume(items, carts, picks);
            && items' == items - PickedIds(picks)
            && (forall c :: c in carts' <==> c in carts && (!Touched(picks, c) || HasItems(items', c)))
            && (forall c :: c in carts' ==> carts'[c] == carts[c])
  {
    if |picks| > 0 {
      var i0 := picks[0].itemId;
      var c0 := picks[0].cartId;
      var rest := items - {i0};
      var carts1 := if HasItems(rest, c0) then carts else carts - {c0};
      var tail := picks[1..];
      assert forall k :: 0 <= k < |tail| ==> tail[k] == picks[k + 1];
      assert Coherent(rest, tail);
      ConsumeRemovesPicked(rest, carts1, tail);
      var (items', carts') := Consume(rest, carts1, tail);
      assert (items', carts') == Consume(items, carts, picks);
      assert PickedIds(picks) == {i0} + PickedIds(tail) by {
        forall i | i in PickedIds(picks) ensures i in {i0} + PickedIds(tail) {
          var k :| 0 <= k < |picks| && picks[k].itemId == i;
          if k > 0 { assert tail[k - 1].itemId == i; }
        }
        forall i | i in PickedIds(tail) ensures i in PickedIds(picks) {
          var k :| 0 <= k < |tail| && tail[k].itemId == i;
          assert picks[k + 1].itemId == i;
        }
      }
      assert items' == items - PickedIds(picks);
      forall c
        ensures c in carts' <==> c in carts && (!Touched(picks, c) || HasItems(items', c))
      {
        assert Touched(picks, c) <==> c == c0 || Touched(tail, c) by {
          if Touched(tail, c) {
            var k :| 0 <= k < |tail| && tail[k].cartId == c;
            assert picks[k + 1].cartId == c;
          }
          if Touched(picks, c) && c != c0 {
            var k :| 0 <= k < |picks| && picks[k].cartId == c;
            assert tail[k - 1].cartId == c;
          }
        }
        if c == c0 {
          if HasItems(items', c) {
            var j :| j in items' && items'[j].cartId == c;
            assert j in rest;
          }
          if !Touched(tail, c) && HasItems(rest, c) {
            var j :| j in rest && rest[j].cartId == c;
            forall k | 0 <= k < |tail|
              ensures tail[k].itemId != j
            {
              assert tail[k].cartId != c;
            }
            assert j in items';
          }
        }
      }
    }
  }

  /** Steps 2–5 of partial checkout: place the order at the first row's store, then
      consume the rows one by one. */
  function Commit(s: State, user: Id, picks: seq<Pick>): (r: (State, Receipt))
    requires |picks| > 0 && picks[0].cartId in s.carts
    requires Listed(s.products, picks) && Coherent(s.items, picks)
    ensures Placed(s, r.0, user, s.carts[picks[0].cartId].storeId, picks, r.1)
    ensures r.0.items == s.items - PickedIds(picks)
    ensures forall c :: c in r.0.carts <==> c in s.carts && (!Touched(picks, c) || HasItems(r.0.items, c))
    ensures forall c :: c in r.0.carts ==> r.0.carts[c] == s.carts[c]
  {
    var (s1, receipt) := Place(s, user, s.carts[picks[0].cartId].storeId, picks);
    ConsumeRemovesPicked(s1.items, s1.carts, picks);
    var (items, carts) := Consume(s1.items, s1.carts, picks);
    PlacedThenConsumed(s, s1, user, s.carts[picks[0].cartId].storeId, picks, receipt, items, carts);
    (s1.(items := items, carts := carts), receipt)
  }

  /** `partialCheckout`: the caller's requested rows, all from one store, become an order. */
  function PartialCheckout(s: State, user: Id, requested: seq<Id>): (r: Reply<Receipt>)
    ensures r.result.Err? ==> r.state == s
    ensures !RequestValid(s, requested) ==> r.result == Err(Invalid)
    ensures RequestValid(s, requested) && Selected(s, user, requested) == {} ==> r.result == Err(NotFound)
    ensures (RequestValid(s, requested) && Selected(s, user, requested) != {}
             && |SelectedStores(s, user, requested)| > 1) ==> r.result == Err(MixedStores)
    ensures (RequestValid(s, requested) && Selected(s, user, requested) != {}
             && |SelectedStores(s, user, requested)| == 1
             && Refusal(s.products, SelectedPicks(s, user, requested)).Some?) ==>
              r.result == Err(Refusal(s.products, SelectedPicks(s, user, requested)).value)
    ensures r.result.Ok? <==>
              && RequestValid(s, requested)
              && Selected(s, user, requested) != {}
              && |SelectedStores(s, user, requested)| == 1
              && forall k :: 0 <= k < |SelectedPicks(s, user, requested)| ==>
                   Buyable(s.products, SelectedPicks(s, user, requested)[k])
    ensures r.result.Ok? ==>
              && r.result.value.orderId in r.state.orders
              && var order := r.state.orders[r.result.value.orderId];
              && order.storeId in SelectedStores(s, user, requested)
              && Placed(s, r.state, user, order.storeId, SelectedPicks(s, user, requested), r.result.value)
    ensures r.result.Ok? ==>
              && r.state.items == s.items - Selected(s, user, requested)
              && (forall c :: c in r.state.carts <==>
                    c in s.carts && (!Touched(SelectedPicks(s, user, requested), c) || HasItems(r.state.items, c)))
              && (forall c :: c in r.state.carts ==> r.state.carts[c] == s.carts[c])
  {
    if !RequestValid(s, requested) then Refuse(s, Invalid)
    else if Selected(s, user, requested) == {} then Refuse(s, NotFound)
    else if |SelectedStores(s, user, requested)| > 1 then Refuse(s, MixedStores)
    else
      var picks := SelectedPicks(s, user, requested);
      match Refusal(s.products, picks)
      case Some(e) => Refuse(s, e)
      case None =>
        assert |picks| > 0 by {
          var i :| i in Selected(s, user, requested);
        }
        assert picks[0].itemId in Selected(s, user, requested);
        assert s.carts[picks[0].cartId].storeId in SelectedStores(s, user, requested);
        var (s1, receipt) := Commit(s, user, picks);
        Reply(Ok(receipt), s1)
  }
}

=== FILE: checkout_laws.dfy ===
/** What checkout guarantees over a consistent database: stock never goes negative
    and drops by exactly what each consumed row held, the new order's total is the
    sum of its subtotals, no empty cart is left behind, and every invariant holds
    afterwards. */
module CheckoutLaws {
  import opened Base
  import opened Domain
  import opened Invariants
  import opened Stock
  import opened Carts
  import opened Checkouts

  /** Rows of one cart name distinct products. */
  lemma PicksDistinct(s: State, picks: seq<Pick>, c: Id)
    requires OneRowPerProduct(s) && Loaded(s, picks)
    requires forall k :: 0 <= k < |picks| ==> picks[k].cartId == c
    ensures forall j, k :: 0 <= j < k < |picks| ==> picks[j].productId != picks[k].productId
  {
    forall j, k | 0 <= j < k < |picks|
      ensures picks[j].productId != picks[k].productId
    {
      assert picks[j].itemId != picks[k].itemId;
    }
  }

  /** Placing an order of buyable rows with distinct products lowers each ordered
      product by exactly its row's quantity, leaves every other product alone, and
      keeps stock within 0 .. MaxStock. */
  lemma PlacedStock(s: State, s': State, user: Id, store: Id, picks: seq<Pick>, receipt: Receipt)
    requires StockInRange(s)
    requires Placed(s, s', user, store, picks, receipt)
    requires forall k :: 0 <= k < |picks| ==> 1 <= picks[k].quantity && Buyable(s.products, picks[k])
    requires forall j, k :: 0 <= j < k < |picks| ==> picks[j].productId != picks[k].productId
    ensures StockInRange(s')
    ensures forall k :: 0 <= k < |picks| ==>
              s'.products[picks[k].productId].stock == s.products[picks[k].productId].stock - picks[k].quantity
    ensures forall p :: p in s.products && (forall k :: 0 <= k < |picks| ==> picks[k].productId != p) ==>
              s'.products[p] == s.products[p]
  {
    var lines := s'.orders[receipt.orderId].lines;
    assert DistinctProducts(lines);
    forall k | 0 <= k < |picks|
      ensures Ordered(lines, picks[k].productId) == picks[k].quantity
    {
      OrderedDistinct(lines, k);
    }
    forall p | p in s.products && (forall k :: 0 <= k < |picks| ==> picks[k].productId != p)
      ensures Ordered(lines, p) == 0
    {
      OrderedAbsent(lines, p);
    }
    PlacedStockInRange(s, s', user, store, picks, receipt);
  }

  /** Every product's stock after placing an order of buyable rows stays in the column. */
  lemma PlacedStockInRange(s: State, s': State, user: Id, store: Id, picks: seq<Pick>, receipt: Receipt)
    requires StockInRange(s)
    requires Placed(s, s', user, store, picks, receipt)
    requires forall k :: 0 <= k < |picks| ==> 1 <= picks[k].quantity && Buyable(s.products, picks[k])
    requires forall j, k :: 0 <= j < k < |picks| ==> picks[j].productId != picks[k].productId
    ensures StockInRange(s')
  {
    var lines := s'.orders[receipt.orderId].lines;
    forall p | p in s'.products
      ensures 0 <= s'.products[p].stock <= MaxStock
    {
      if k :| 0 <= k < |picks| && picks[k].productId == p {
        OrderedDistinct(lines, k);
      } else {
        OrderedAbsent(lines, p);
      }
    }
  }

  /** The placed order is well formed and the counters stay ahead of every id. */
  lemma PlacedOrders(s: State, s': State, user: Id, store: Id, picks: seq<Pick>, receipt: Receipt)
    requires OrdersWellFormed(s) && IdsBelowCounters(s)
    requires Placed(s, s', user, store, picks, receipt)
    requires forall k :: 0 <= k < |picks| ==> 1 <= picks[k].quantity
    requires s'.carts.Keys <= s.carts.Keys && s'.items.Keys <= s.items.Keys
    requires s'.nextProduct == s.nextProduct && s'.nextStore == s.nextStore
    requires s'.nextCart == s.nextCart && s'.nextItem == s.nextItem
    ensures OrdersWellFormed(s') && IdsBelowCounters(s')
  {
    forall o | o in s'.orders
      ensures WellFormedOrder(s'.orders[o])
    {
      if o != receipt.orderId {
        assert s'.orders[o] == s.orders[o];
      }
    }
  }

  /** Full checkout reads every row of the cart, and only those. */
  lemma CartPicksFromCart(s: State, cartId: Id)
    requires ItemsAttached(s) && IdsBelowCounters(s)
    ensures Loaded(s, CartPicks(s, cartId))
    ensures forall k :: 0 <= k < |CartPicks(s, cartId)| ==>
              CartPicks(s, cartId)[k].cartId == cartId && 1 <= CartPicks(s, cartId)[k].quantity
    ensures PickedIds(CartPicks(s, cartId)) == CartRows(s, cartId)
  {
    var ids := RowsOf(s, cartId);
    var picks := CartPicks(s, cartId);
    forall k | 0 <= k < |picks|
      ensures picks[k].cartId == cartId
    {
      assert picks[k].itemId == ids[k];
    }
    forall i | i in s.items && s.items[i].cartId == cartId
      ensures i in PickedIds(picks)
    {
      assert i in ids;
      var k :| 0 <= k < |ids| && ids[k] == i;
      assert picks[k].itemId == i;
    }
  }

  /** Partial checkout reads rows of a single cart: the caller's cart at the one store. */
  lemma SelectedFromOneCart(s: State, user: Id, requested: seq<Id>)
    requires OneCartPerUserStore(s) && ItemsAttached(s)
    requires |SelectedStores(s, user, requested)| == 1
    ensures var picks := SelectedPicks(s, user, requested);
            && (forall k :: 0 <= k < |picks| ==> 1 <= picks[k].quantity)
            && (|picks| > 0 ==> forall k :: 0 <= k < |picks| ==> picks[k].cartId == picks[0].cartId)
  {
    var picks := SelectedPicks(s, user, requested);
    if |picks| > 0 {
      forall k | 0 <= k < |picks|
        ensures picks[k].cartId == picks[0].cartId
      {
        assert picks[k].itemId in Selected(s, user, requested);
        assert picks[0].itemId in Selected(s, user, requested);
        var a := s.carts[picks[0].cartId].storeId;
        var b := s.carts[picks[k].cartId].storeId;
        assert a in SelectedStores(s, user, requested);
        assert b in SelectedStores(s, user, requested);
        SingleMember(SelectedStores(s, user, requested), a, b);
        assert s.carts[picks[0].cartId] == s.carts[picks[k].cartId];
      }
    }
  }

  lemma SingleMember(xs: set<Id>, a: Id, b: Id)
    requires |xs| == 1 && a in xs && b in xs
    ensures a == b
  {
    var rest := xs - {a};
    assert |rest| == 0;
    assert b in rest || b == a;
  }

  /** Taking the picked rows, and deleting exactly the touched carts left without a row,
      keeps every row attached, leaves no empty cart and keeps both uniqueness rules. */
  lemma ConsumedCarts(s: State, s': State, picks: seq<Pick>)
    requires ItemsAttached(s) && NoEmptyCart(s) && OneCartPerUserStore(s) && OneRowPerProduct(s)
    requires Loaded(s, picks)
    requires s'.items == s.items - PickedIds(picks)
    requires forall d :: d in s'.carts <==> d in s.carts && (!Touched(picks, d) || HasItems(s'.items, d))
    requires forall d :: d in s'.carts ==> s'.carts[d] == s.carts[d]
    ensures ItemsAttached(s') && NoEmptyCart(s') && OneCartPerUserStore(s') && OneRowPerProduct(s')
  {
    forall i | i in s'.items
      ensures s'.items[i].cartId in s'.carts
    {
      assert HasItems(s'.items, s.items[i].cartId);
    }
    forall d | d in s'.carts && !Touched(picks, d)
      ensures HasItems(s'.items, d)
    {
      var j :| j in s.items && s.items[j].cartId == d;
      forall k | 0 <= k < |picks|
        ensures picks[k].itemId != j
      {
        assert picks[k].cartId != d;
      }
      assert j !in PickedIds(picks);
      assert j in s'.items;
    }
  }

  /** Full checkout's bulk deletion is the row-by-row consumption of the cart's rows. */
  lemma WholeCartConsumed(s: State, s': State, picks: seq<Pick>, cartId: Id)
    requires CartConsumed(s, s', cartId)
    requires |picks| > 0 && forall k :: 0 <= k < |picks| ==> picks[k].cartId == cartId
    requires PickedIds(picks) == CartRows(s, cartId)
    ensures s'.items == s.items - PickedIds(picks)
    ensures forall d :: d in s'.carts <==> d in s.carts && (!Touched(picks, d) || HasItems(s'.items, d))
    ensures forall d :: d in s'.carts ==> s'.carts[d] == s.carts[d]
  {
    assert picks[0].cartId == cartId;
    assert Touched(picks, cartId);
    forall d | Touched(picks, d)
      ensures d == cartId
    {
      var k :| 0 <= k < |picks| && picks[k].cartId == d;
    }
    assert !HasItems(s'.items, cartId);
  }

  /** A checkout's rows and carts afterwards: buyable rows of one cart were consumed,
      and a touched cart survives exactly when it keeps a row. */
  ghost predicate ConsumedShape(s: State, s': State, picks: seq<Pick>) {
    && |picks| > 0 && Loaded(s, picks)
    && (forall k :: 0 <= k < |picks| ==>
          1 <= picks[k].quantity && picks[k].cartId == picks[0].cartId && Buyable(s.products, picks[k]))
    && s'.items == s.items - PickedIds(picks)
    && (forall d :: d in s'.carts <==> d in s.carts && (!Touched(picks, d) || HasItems(s'.items, d)))
    && (forall d :: d in s'.carts ==> s'.carts[d] == s.carts[d])
  }

  /** Placing an order for picks from one cart and consuming exactly the picked rows
      keeps every invariant. */
  lemma PlacedConsumedValid(s: State, s': State, user: Id, store: Id, picks: seq<Pick>, receipt: Receipt)
    requires Valid(s)
    requires Placed(s, s', user, store, picks, receipt)
    requires ConsumedShape(s, s', picks)
    ensures Valid(s')
  {
    PicksDistinct(s, picks, picks[0].cartId);
    PlacedStock(s, s', user, store, picks, receipt);
    PlacedOrders(s, s', user, store, picks, receipt);
    ConsumedCarts(s, s', picks);
  }

  /** A successful full checkout consumed the whole cart's rows. */
  lemma CheckoutShape(s: State, s': State, cartId: Id)
    requires ItemsAttached(s) && IdsBelowCounters(s)
    requires Sellable(s, CartPicks(s, cartId))
    requires CartConsumed(s, s', cartId)
    ensures ConsumedShape(s, s', CartPicks(s, cartId))
    ensures PickedIds(CartPicks(s, cartId)) == CartRows(s, cartId)
  {
    CartPicksFromCart(s, cartId);
    WholeCartConsumed(s, s', CartPicks(s, cartId), cartId);
  }

  /** A successful full checkout, described by its outcome, keeps every invariant. */
  lemma CheckoutOutcomeValid(s: State, s': State, user: Id, cartId: Id, receipt: Receipt)
    requires Valid(s)
    requires cartId in s.carts && Sellable(s, CartPicks(s, cartId))
    requires Placed(s, s', user, s.carts[cartId].storeId, CartPicks(s, cartId), receipt)
    requires CartConsumed(s, s', cartId)
    ensures Valid(s')
  {
    CheckoutShape(s, s', cartId);
    PlacedConsumedValid(s, s', user, s.carts[cartId].storeId, CartPicks(s, cartId), receipt);
  }

  /** Full checkout keeps every invariant. */
  lemma CheckoutKeepsValid(s: State, user: Id, cartId: Id)
    requires Valid(s)
    ensures Valid(Checkout(s, user, cartId).state)
  {
    var r := Checkout(s, user, cartId);
    if r.result.Ok? {
      CheckoutOutcomeValid(s, r.state, user, cartId, r.result.value);
    }
  }

  /** What a successful partial checkout did, as its contract states it. */
  ghost predicate PartialOutcome(s: State, s': State, user: Id, requested: seq<Id>, store: Id, receipt: Receipt) {
    var picks := SelectedPicks(s, user, requested);
    && Selected(s, user, requested) != {}
    && |SelectedStores(s, user, requested)| == 1
    && (forall k :: 0 <= k < |picks| ==> Buyable(s.products, picks[k]))
    && Placed(s, s', user, store, picks, receipt)
    && s'.items == s.items - Selected(s, user, requested)
    && (forall c :: c in s'.carts <==> c in s.carts && (!Touched(picks, c) || HasItems(s'.items, c)))
    && (forall c :: c in s'.carts ==> s'.carts[c] == s.carts[c])
  }

  lemma PartialCheckoutOutcome(s: State, user: Id, requested: seq<Id>)
    requires PartialCheckout(s, user, requested).result.Ok?
    ensures var r := PartialCheckout(s, user, requested);
            PartialOutcome(s, r.state, user, requested, r.state.orders[r.result.value.orderId].storeId, r.result.value)
  {
  }

  /** A successful partial checkout consumed the selected rows, all of one cart. */
  lemma SelectedShape(s: State, s': State, user: Id, requested: seq<Id>, store: Id, receipt: Receipt)
    requires OneCartPerUserStore(s) && ItemsAttached(s)
    requires PartialOutcome(s, s', user, requested, store, receipt)
    ensures ConsumedShape(s, s', SelectedPicks(s, user, requested))
  {
    var picks := SelectedPicks(s, user, requested);
    SelectedFromOneCart(s, user, requested);
    var i :| i in Selected(s, user, requested);
    assert i in PickedIds(picks);
  }

  /** A successful partial checkout, described by its outcome, keeps every invariant. */
  lemma PartialOutcomeValid(s: State, s': State, user: Id, requested: seq<Id>, store: Id, receipt: Receipt)
    requires Valid(s)
    requires PartialOutcome(s, s', user, requested, store, receipt)
    ensures Valid(s')
  {
    SelectedShape(s, s', user, requested, store, receipt);
    PlacedConsumedValid(s, s', user, store, SelectedPicks(s, user, requested), receipt);
  }

  /** Partial checkout keeps every invariant; in particular a cart whose last row was
      taken is gone, and a cart keeping some rows stays. */
  lemma PartialCheckoutKeepsValid(s: State, user: Id, requested: seq<Id>)
    requires Valid(s)
    ensures Valid(PartialCheckout(s, user, requested).state)
  {
    var r := PartialCheckout(s, user, requested);
    if r.result.Ok? {
      PartialCheckoutOutcome(s, user, requested);
      PartialOutcomeValid(s, r.state, user, requested, r.state.orders[r.result.value.orderId].storeId, r.result.value);
    }
  }

  /** Consuming `rows` lowered each row's product by exactly the row's quantity, deleted
      the row, and left every product no consumed row names as it was. */
  ghost predicate LowersRows(s: State, s': State, rows: set<Id>) {
    && s'.products.Keys == s.products.Keys
    && (forall i :: i in rows ==>
          && i in s.items && i !in s'.items
          && s.items[i].productId in s.products
          && s'.products[s.items[i].productId].stock == s.products[s.items[i].productId].stock - s.items[i].quantity)
    && (forall p :: p in s.products && (forall i :: i in rows && i in s.items ==> s.items[i].productId != p) ==>
          s'.products[p] == s.products[p])
  }

  /** The stock effect of placing an order for picks from one cart. */
  lemma PlacedLowersRows(s: State, s': State, user: Id, store: Id, picks: seq<Pick>, receipt: Receipt)
    requires StockInRange(s) && OneRowPerProduct(s)
    requires Placed(s, s', user, store, picks, receipt)
    requires ConsumedShape(s, s', picks)
    ensures LowersRows(s, s', PickedIds(picks))
  {
    PicksDistinct(s, picks, picks[0].cartId);
    PlacedStock(s, s', user, store, picks, receipt);
    forall i | i in PickedIds(picks)
      ensures s'.products[s.items[i].productId].stock == s.products[s.items[i].productId].stock - s.items[i].quantity
    {
      var k :| 0 <= k < |picks| && picks[k].itemId == i;
    }
    forall p | p in s.products && (forall i :: i in PickedIds(picks) && i in s.items ==> s.items[i].productId != p)
      ensures s'.products[p] == s.products[p]
    {
      forall k | 0 <= k < |picks|
        ensures picks[k].productId != p
      {
        assert picks[k].itemId in PickedIds(picks);
      }
    }
  }

  lemma CheckoutOutcomeLowers(s: State, s': State, user: Id, cartId: Id, receipt: Receipt)
    requires Valid(s)
    requires cartId in s.carts && Sellable(s, CartPicks(s, cartId))
    requires Placed(s, s', user, s.carts[cartId].storeId, CartPicks(s, cartId), receipt)
    requires CartConsumed(s, s', cartId)
    ensures LowersRows(s, s', CartRows(s, cartId))
  {
    CheckoutShape(s, s', cartId);
    PlacedLowersRows(s, s', user, s.carts[cartId].storeId, CartPicks(s, cartId), receipt);
  }

  /** Full checkout turns the whole cart into the order: every row of the cart lowers
      its product's stock by exactly the row's quantity and is deleted, products the
      cart does not hold keep their stock, and the cart is gone. */
  lemma CheckoutLowersStock(s: State, user: Id, cartId: Id)
    requires Valid(s)
    requires Checkout(s, user, cartId).result.Ok?
    ensures LowersRows(s, Checkout(s, user, cartId).state, CartRows(s, cartId))
    ensures cartId !in Checkout(s, user, cartId).state.carts
  {
    var r := Checkout(s, user, cartId);
    CheckoutOutcomeLowers(s, r.state, user, cartId, r.result.value);
  }

  lemma PartialOutcomeLowers(s: State, s': State, user: Id, requested: seq<Id>, store: Id, receipt: Receipt)
    requires Valid(s)
    requires PartialOutcome(s, s', user, requested, store, receipt)
    ensures LowersRows(s, s', Selected(s, user, requested))
  {
    SelectedShape(s, s', user, requested, store, receipt);
    PlacedLowersRows(s, s', user, store, SelectedPicks(s, user, requested), receipt);
  }

  /** Partial checkout lowers each selected row's product by exactly that row's quantity,
      deletes the row, and leaves every product no selected row names alone. */
  lemma PartialCheckoutLowersStock(s: State, user: Id, requested: seq<Id>)
    requires Valid(s)
    requires PartialCheckout(s, user, requested).result.Ok?
    ensures LowersRows(s, PartialCheckout(s, user, requested).state, Selected(s, user, requested))
  {
    var r := PartialCheckout(s, user, requested);
    PartialCheckoutOutcome(s, user, requested);
    PartialOutcomeLowers(s, r.state, user, requested, r.state.orders[r.result.value.orderId].storeId, r.result.value);
  }
}

=== FILE: domain.dfy ===
/** The rows of the shop's database that the cart and checkout engine reads and
    writes, the whole database as one immutable `State`, and the outcome of a
    request handler. Money is in integer cents. */
module Domain {
  import opened Base

  type Id = nat

  /** Largest value of the `integer` (32-bit signed) `stock` column. */
  const MaxStock: int := 0x7FFF_FFFF

  /** Largest `decimal(12,2)` price, in cents: 9999999999.99. */
  const MaxPrice: int := 999_999_999_999

  /** Column widths of the products table: `string('name', 100)`, `string('category', 50)`. */
  const MaxName: nat := 100
  const MaxCategory: nat := 50

  /** `PHP_INT_MAX`: the `integer` validation rule rejects any larger number. */
  const MaxPhpInt: int := 0x7FFF_FFFF_FFFF_FFFF

  datatype Status = Pending | Paid | Processing | Shipped | Completed | Cancelled

  /** The string stored in the `status` column. */
  function StatusName(st: Status): string {
    match st
    case Pending => "pending"
    case Paid => "paid"
    case Processing => "processing"
    case Shipped => "shipped"
    case Completed => "completed"
    case Cancelled => "cancelled"
  }

  datatype Product = Product(
    storeId: Id,
    name: string,
    description: Option<string>,
    price: int,        // cents
    stock: int,
    category: Option<string>,
    isActive: bool)

  /** A merchant's store; only its owner matters here. */
  datatype Store = Store(ownerId: Id)

  datatype Cart = Cart(userId: Id, storeId: Id)

  datatype CartItem = CartItem(cartId: Id, productId: Id, quantity: int)

  /** An order item: name and price are copied from the product at purchase. */
  datatype OrderLine = OrderLine(
    productId: Id,
    productName: string,
    priceAtPurchase: int,
    quantity: int,
    subtotal: int)

  datatype Order = Order(
    userId: Id,
    storeId: Id,
    status: Status,
    totalPrice: int,
    lines: seq<OrderLine>)

  /** The database. Each `next…` counter is the next auto-increment id of its table. */
  datatype State = State(
    products: map<Id, Product>,
    stores: map<Id, Store>,
    carts: map<Id, Cart>,
    items: map<Id, CartItem>,
    orders: map<Id, Order>,
    nextProduct: Id,
    nextStore: Id,
    nextCart: Id,
    nextItem: Id,
    nextOrder: Id)

  /** The auto-increment counters point past every row, so an insert never
      overwrites one (the database's guarantee for `bigIncrements` keys). */
  predicate CountersFresh(s: State) {
    && s.nextProduct !in s.products && s.nextStore !in s.stores && s.nextCart !in s.carts
    && s.nextItem !in s.items && s.nextOrder !in s.orders
  }

  /** Why a request was refused, with the HTTP status the client sees. */
  datatype Error =
    | Invalid                    // 422: request validation failed
    | Unauthenticated            // 401: no user behind the token
    | Forbidden                  // 403: wrong role, or a merchant without a store
    | NotFound                   // 404: an explicit not-found answer
    | EmptyCart                  // 400
    | OutOfStock(productId: Id)  // 400
    | Unavailable(productId: Id) // 400: the product is not active
    | MixedStores                // 400
    | NotCancellable             // 400
    | Failed                     // 500: an exception, caught by the handler or not

  datatype Result<+T> = Ok(value: T) | Err(error: Error)

  /** What a handler answers, and the database after its transaction. */
  datatype Reply<+T> = Reply(result: Result<T>, state: State)

  /** A refused request: the transaction is rolled back, nothing changes. */
  function Refuse<T>(s: State, e: Error): Reply<T> {
    Reply(Err(e), s)
  }

  /** Does some row of `items` belong to cart `c`? */
  predicate HasItems(items: map<Id, CartItem>, c: Id) {
    exists i :: i in items && items[i].cartId == c
  }

  /** Is `i` a cart row whose cart belongs to `user` (the `whereHas('cart', user)` filter)? */
  predicate OwnedItem(s: State, user: Id, i: Id) {
    i in s.items && s.items[i].cartId in s.carts && s.carts[s.items[i].cartId].userId == user
  }

  /** Sum of the recorded subtotals of an order's lines. */
  function SumSubtotals(lines: seq<OrderLine>): int {
    if |lines| == 0 then 0 else lines[0].subtotal + SumSubtotals(lines[1..])
  }
}

=== FILE: invariants.dfy ===
/** The consistency conditions every handler keeps: stock within the column's
    range and never negative, no empty cart, one cart per (user, store), one row
    per (cart, product), orders whose total is the sum of their subtotals, and
    ids below the auto-increment counters. */
module Invariants {
  import opened Base
  import opened Domain

  predicate StockInRange(s: State) {
    forall p :: p in s.products ==>
      0 <= s.products[p].stock <= MaxStock && 0 <= s.products[p].price <= MaxPrice
  }

  /** Every cart row hangs off an existing cart and holds at least one unit. */
  predicate ItemsAttached(s: State) {
    forall i :: i in s.items ==> s.items[i].cartId in s.carts && 1 <= s.items[i].quantity
  }

  /** A cart is deleted as soon as its last row goes. */
  predicate NoEmptyCart(s: State) {
    forall c :: c in s.carts ==> HasItems(s.items, c)
  }

  predicate OneCartPerUserStore(s: State) {
    forall c, d :: c in s.carts && d in s.carts && s.carts[c] == s.carts[d] ==> c == d
  }

  predicate OneRowPerProduct(s: State) {
    forall i, j ::
      i in s.items && j in s.items &&
      s.items[i].cartId == s.items[j].cartId && s.items[i].productId == s.items[j].productId
      ==> i == j
  }

  predicate OneStorePerOwner(s: State) {
    forall a, b :: a in s.stores && b in s.stores && s.stores[a] == s.stores[b] ==> a == b
  }

  /** An order as checkout writes it: positive quantities, subtotal = price × quantity,
      total = sum of subtotals. */
  predicate WellFormedOrder(o: Order) {
    && o.totalPrice == SumSubtotals(o.lines)
    && forall k :: 0 <= k < |o.lines| ==>
         1 <= o.lines[k].quantity && o.lines[k].subtotal == o.lines[k].priceAtPurchase * o.lines[k].quantity
  }

  predicate OrdersWellFormed(s: State) {
    forall o :: o in s.orders ==> WellFormedOrder(s.orders[o])
  }

  predicate IdsBelowCounters(s: State) {
    && (forall p :: p in s.products ==> p < s.nextProduct)
    && (forall t :: t in s.stores ==> t < s.nextStore)
    && (forall c :: c in s.carts ==> c < s.nextCart)
    && (forall i :: i in s.items ==> i < s.nextItem)
    && (forall o :: o in s.orders ==> o < s.nextOrder)
  }

  predicate Valid(s: State) {
    && StockInRange(s)
    && ItemsAttached(s)
    && NoEmptyCart(s)
    && OneCartPerUserStore(s)
    && OneRowPerProduct(s)
    && OneStorePerOwner(s)
    && OrdersWellFormed(s)
    && IdsBelowCounters(s)
  }
}

=== FILE: order_laws.dfy ===
/** What the order handlers guarantee: cancelling a fresh order gives back exactly
    the stock its checkout took, an order is cancelled at most once, and both the
    buyer's cancel and the merchant's status update keep every invariant. */
module OrderLaws {
  import opened Base
  import opened Domain
  import opened Invariants
  import opened Stock
  import opened Carts
  import opened Checkouts
  import opened CheckoutLaws
  import opened Orders

  /** A cancel whose increments fit gives back exactly what the ledger computes. */
  lemma CancelRestocks(s: State, user: Id, orderId: Id, products: map<Id, Product>)
    requires Mine(s, user, orderId) && s.orders[orderId].status == Pending
    requires Restock(s.products, s.orders[orderId].lines) == Some(products)
    ensures Cancel(s, user, orderId).result.Ok?
    ensures Cancel(s, user, orderId).state.products == products
    ensures Cancel(s, user, orderId).state.orders[orderId].status == Cancelled
  {
  }

  /** The placed order's stock effect is the ledger's decrement of its lines. */
  lemma PlacedDepletes(s: State, s': State, user: Id, store: Id, picks: seq<Pick>, receipt: Receipt)
    requires forall k :: 0 <= k < |picks| ==> 0 <= picks[k].quantity
    requires Placed(s, s', user, store, picks, receipt)
    ensures NonNegative(s'.orders[receipt.orderId].lines)
    ensures s'.products == Deplete(s.products, s'.orders[receipt.orderId].lines)
  {
    var lines := s'.orders[receipt.orderId].lines;
    var low := Deplete(s.products, lines);
    forall p | p in low
      ensures s'.products[p] == low[p]
    {
    }
    assert s'.products == low;
  }

  /** Cancelling an order right after it was placed succeeds and returns every product
      to the stock it had before the order. */
  lemma CancelUndoesPlace(s: State, s': State, user: Id, store: Id, picks: seq<Pick>, receipt: Receipt)
    requires forall p :: p in s.products ==> s.products[p].stock <= MaxStock
    requires forall k :: 0 <= k < |picks| ==> 0 <= picks[k].quantity
    requires Placed(s, s', user, store, picks, receipt)
    ensures Cancel(s', user, receipt.orderId).result.Ok?
    ensures Cancel(s', user, receipt.orderId).state.products == s.products
    ensures Cancel(s', user, receipt.orderId).state.orders[receipt.orderId].status == Cancelled
  {
    var lines := s'.orders[receipt.orderId].lines;
    PlacedDepletes(s, s', user, store, picks, receipt);
    RestockUndoesDeplete(s.products, lines);
    CancelRestocks(s', user, receipt.orderId, s.products);
  }

  /** Cancel is the exact inverse of checkout on stock: cancelling the order a full
      checkout just placed succeeds and every product's stock is what it was before. */
  lemma CancelUndoesCheckout(s: State, user: Id, cartId: Id)
    requires Valid(s)
    requires Checkout(s, user, cartId).result.Ok?
    ensures var placed := Checkout(s, user, cartId);
            var undone := Cancel(placed.state, user, placed.result.value.orderId);
            && undone.result.Ok?
            && undone.state.products == s.products
  {
    var r := Checkout(s, user, cartId);
    CartPicksFromCart(s, cartId);
    CancelUndoesPlace(s, r.state, user, s.carts[cartId].storeId, CartPicks(s, cartId), r.result.value);
  }

  /** The same for partial checkout. */
  lemma CancelUndoesPartialCheckout(s: State, user: Id, requested: seq<Id>)
    requires Valid(s)
    requires PartialCheckout(s, user, requested).result.Ok?
    ensures var placed := PartialCheckout(s, user, requested);
            var undone := Cancel(placed.state, user, placed.result.value.orderId);
            && undone.result.Ok?
            && undone.state.products == s.products
  {
    var r := PartialCheckout(s, user, requested);
    PartialCheckoutOutcome(s, user, requested);
    var store := r.state.orders[r.result.value.orderId].storeId;
    SelectedShape(s, r.state, user, requested, store, r.result.value);
    CancelUndoesPlace(s, r.state, user, store, SelectedPicks(s, user, requested), r.result.value);
  }

  /** An order is cancelled at most once: after a successful cancel the next one is refused. */
  lemma CancelTwiceRefused(s: State, user: Id, orderId: Id)
    requires Cancel(s, user, orderId).result.Ok?
    ensures Cancel(Cancel(s, user, orderId).state, user, orderId) == Refuse(Cancel(s, user, orderId).state, NotCancellable)
  {
  }

  lemma CancelKeepsValid(s: State, user: Id, orderId: Id)
    requires Valid(s)
    ensures Valid(Cancel(s, user, orderId).state)
  {
    var r := Cancel(s, user, orderId);
    if r.result.Ok? {
      var lines := s.orders[orderId].lines;
      assert WellFormedOrder(s.orders[orderId]);
      assert NonNegative(lines);
      forall p | p in r.state.products
        ensures 0 <= r.state.products[p].stock <= MaxStock
      {
        assert 0 <= Ordered(lines, p);
      }
      forall o | o in r.state.orders
        ensures WellFormedOrder(r.state.orders[o])
      {
        assert WellFormedOrder(s.orders[o]);
      }
    }
  }

  lemma UpdateStatusKeepsValid(s: State, user: Id, orderId: Id, name: string)
    requires Valid(s)
    ensures Valid(UpdateStatus(s, user, orderId, name).state)
  {
    var r := UpdateStatus(s, user, orderId, name);
    if r.result.Ok? {
      forall o | o in r.state.orders
        ensures WellFormedOrder(r.state.orders[o])
      {
        assert WellFormedOrder(s.orders[o]);
      }
    }
  }
}

=== FILE: orders.dfy ===
/** The life of an order after checkout: the buyer may cancel it while it is still
    pending, which puts the stock back; the store's merchant may set its status; both
    may read it. */
module Orders {
  import opened Base
  import opened Domain
  import opened Stock

  /** The `where('user_id', …)->findOrFail(id)` lookup: order `o` exists and is the caller's. */
  predicate Mine(s: State, user: Id, o: Id) {
    o in s.orders && s.orders[o].userId == user
  }

  /** Putting back every unit `lines` records keeps each product within the stock column. */
  predicate Returnable(products: map<Id, Product>, lines: seq<OrderLine>) {
    forall p :: p in products ==> products[p].stock + Ordered(lines, p) <= MaxStock
  }

  /** `cancel`: a pending order of the caller becomes cancelled and each line's quantity
      returns to its product (lines whose product is gone are skipped). Not the caller's
      order, or an increment the stock column cannot hold, rolls back with a server error. */
  function Cancel(s: State, user: Id, orderId: Id): (r: Reply<()>)
    ensures r.result.Err? ==> r.state == s
    ensures !Mine(s, user, orderId) ==> r.result == Err(Failed)
    ensures Mine(s, user, orderId) && s.orders[orderId].status != Pending ==> r.result == Err(NotCancellable)
    ensures r.result.Ok? ==> Mine(s, user, orderId) && s.orders[orderId].status == Pending
    ensures (Mine(s, user, orderId) && s.orders[orderId].status == Pending
             && NonNegative(s.orders[orderId].lines) && Returnable(s.products, s.orders[orderId].lines))
            ==> r.result.Ok?
    ensures r.result.Ok? ==>
              var lines := s.orders[orderId].lines;
              && r.state.orders == s.orders[orderId := s.orders[orderId].(status := Cancelled)]
              && r.state.products.Keys == s.products.Keys
              && (forall p :: p in s.products ==>
                    r.state.products[p] == s.products[p].(stock := s.products[p].stock + Ordered(lines, p)))
              && r.state.(products := s.products, orders := s.orders) == s
  {
    if !Mine(s, user, orderId) then Refuse(s, Failed)
    else
      var order := s.orders[orderId];
      if order.status != Pending then Refuse(s, NotCancellable)
      else
        match Restock(s.products, order.lines)
        case None => Refuse(s, Failed)
        case Some(products) =>
          Reply(Ok(()), s.(products := products, orders := s.orders[orderId := order.(status := Cancelled)]))
  }

  /** The statuses a merchant may set: every status but `pending`. */
  function MerchantStatus(name: string): (r: Option<Status>)
    ensures r.Some? ==> r.value != Pending && StatusName(r.value) == name
    ensures r.None? ==> forall st :: st != Pending ==> StatusName(st) != name
  {
    if name == "paid" then Some(Paid)
    else if name == "processing" then Some(Processing)
    else if name == "shipped" then Some(Shipped)
    else if name == "completed" then Some(Completed)
    else if name == "cancelled" then Some(Cancelled)
    else None
  }

  /** The stores the caller owns. */
  function OwnedStores(s: State, user: Id): set<Id> {
    set t | t in s.stores && s.stores[t].ownerId == user
  }

  /** `$user->store`: the caller's store, if any. */
  function StoreOf(s: State, user: Id): (r: Option<Id>)
    ensures r.Some? ==> r.value in s.stores && s.stores[r.value].ownerId == user
    ensures r.None? <==> forall t :: t in OwnedStores(s, user) ==> s.nextStore <= t
  {
    Least(OwnedStores(s, user), s.nextStore)
  }

  /** `updateStatus`: the merchant sets the status of an order placed at their store.
      Any allowed status may follow any other, and setting `cancelled` here returns no stock. */
  function UpdateStatus(s: State, user: Id, orderId: Id, name: string): (r: Reply<Status>)
    ensures r.result.Err? ==> r.state == s
    ensures MerchantStatus(name).None? ==> r.result == Err(Invalid)
    ensures MerchantStatus(name).Some? && StoreOf(s, user).None? ==> r.result == Err(Forbidden)
    ensures (MerchantStatus(name).Some? && StoreOf(s, user).Some?
             && !(orderId in s.orders && s.orders[orderId].storeId == StoreOf(s, user).value)) ==>
              r.result == Err(Failed)
    ensures r.result.Ok? <==>
              && MerchantStatus(name).Some?
              && StoreOf(s, user).Some?
              && orderId in s.orders && s.orders[orderId].storeId == StoreOf(s, user).value
    ensures r.result.Ok? ==>
              && StatusName(r.result.value) == name
              && s.stores[s.orders[orderId].storeId].ownerId == user
              && r.state == s.(orders := s.orders[orderId := s.orders[orderId].(status := r.result.value)])
  {
    match MerchantStatus(name)
    case None => Refuse(s, Invalid)
    case Some(status) =>
      match StoreOf(s, user)
      case None => Refuse(s, Forbidden)
      case Some(store) =>
        if orderId !in s.orders || s.orders[orderId].storeId != store then Refuse(s, Failed)
        else Reply(Ok(status), s.(orders := s.orders[orderId := s.orders[orderId].(status := status)]))
  }

  /** `show`: the caller's order, or not-found. */
  function ShowOrder(s: State, user: Id, orderId: Id): (r: Result<Order>)
    ensures r.Ok? <==> Mine(s, user, orderId)
    ensures r.Ok? ==> r.value == s.orders[orderId]
    ensures r.Err? ==> r.error == NotFound
  {
    if Mine(s, user, orderId) then Ok(s.orders[orderId]) else Err(NotFound)
  }

  function Reverse(xs: seq<nat>): (r: seq<nat>)
    ensures |r| == |xs|
    ensures forall k :: 0 <= k < |xs| ==> r[k] == xs[|xs| - 1 - k]
  {
    if |xs| == 0 then [] else Reverse(xs[1..]) + [xs[0]]
  }

  /** The members of `ids` below `bound`, newest (largest id) first. */
  function Newest(ids: set<nat>, bound: nat): (r: seq<nat>)
    ensures forall k :: 0 <= k < |r| ==> r[k] in ids
    ensures forall x :: x in ids && x < bound ==> x in r
    ensures forall j, k :: 0 <= j < k < |r| ==> r[j] > r[k]
  {
    var up := Ascending(ids, bound);
    var down := Reverse(up);
    assert forall x :: x in up ==> x in down by {
      forall x | x in up ensures x in down {
        var k :| 0 <= k < |up| && up[k] == x;
        assert down[|up| - 1 - k] == x;
      }
    }
    down
  }

  /** `myOrders`: the caller's orders, newest first. */
  function MyOrders(s: State, user: Id): (r: seq<Id>)
    ensures forall k :: 0 <= k < |r| ==> Mine(s, user, r[k])
    ensures forall o: Id :: Mine(s, user, o) && o < s.nextOrder ==> o in r
    ensures forall j, k :: 0 <= j < k < |r| ==> r[j] > r[k]
  {
    Newest((set o | o in s.orders && s.orders[o].userId == user), s.nextOrder)
  }

  /** `storeOrders`: the orders placed at the caller's store, newest first; forbidden
      to a caller without a store. */
  function StoreOrders(s: State, user: Id): (r: Result<seq<Id>>)
    ensures r.Err? <==> StoreOf(s, user).None?
    ensures r.Err? ==> r.error == Forbidden
    ensures r.Ok? ==> forall k :: 0 <= k < |r.value| ==>
              r.value[k] in s.orders && s.orders[r.value[k]].storeId == StoreOf(s, user).value
    ensures r.Ok? ==> forall o :: o in s.orders && o < s.nextOrder && s.orders[o].storeId == StoreOf(s, user).value ==>
              o in r.value
    ensures r.Ok? ==> forall j, k :: 0 <= j < k < |r.value| ==> r.value[j] > r.value[k]
  {
    match StoreOf(s, user)
    case None => Err(Forbidden)
    case Some(store) => Ok(Newest((set o | o in s.orders && s.orders[o].storeId == store), s.nextOrder))
  }
}

=== FILE: role_gate.dfy ===
/** The `role:` route middleware: an unauthenticated request is refused with 401,
    a user whose role string is not among the route's allowed role names with 403,
    and anyone else passes through untouched. Allowed names are first turned into
    `UserRole` enum cases, so a name outside the enum raises. */
module RoleGate {
  import opened Base
  import opened Domain

  datatype Role = SuperAdmin | Merchant | Customer

  /** The enum's backing string. */
  function RoleName(role: Role): string {
    match role
    case SuperAdmin => "super_admin"
    case Merchant => "merchant"
    case Customer => "customer"
  }

  /** `UserRole::from(name)`: the case whose backing string is exactly `name`. */
  function ParseRole(name: string): (r: Option<Role>)
    ensures r.Some? ==> RoleName(r.value) == name
    ensures r.None? ==> forall role: Role :: RoleName(role) != name
  {
    if name == "super_admin" then Some(SuperAdmin)
    else if name == "merchant" then Some(Merchant)
    else if name == "customer" then Some(Customer)
    else None
  }

  lemma ParseRoleName(role: Role)
    ensures ParseRole(RoleName(role)) == Some(role)
  {
  }

  /** The authenticated user as the middleware sees it: the `role` column is a string. */
  datatype User = User(id: Id, role: string)

  predicate AllRoleNames(roles: seq<string>) {
    forall k :: 0 <= k < |roles| ==> ParseRole(roles[k]).Some?
  }

  /** Each allowed name mapped to its enum case's backing string; `None` when some name
      is not a case of the enum (the lookup raises). */
  function Canonical(roles: seq<string>): (r: Option<seq<string>>)
    ensures r.Some? <==> AllRoleNames(roles)
    ensures r.Some? ==> r.value == roles
  {
    if |roles| == 0 then Some([])
    else
      match ParseRole(roles[0])
      case None => None
      case Some(role) =>
        match Canonical(roles[1..])
        case None => None
        case Some(rest) =>
          assert roles == [roles[0]] + roles[1..];
          Some([RoleName(role)] + rest)
  }

  /** The middleware: `Ok(user)` passes the request on unchanged. */
  function Handle(user: Option<User>, roles: seq<string>): (r: Result<User>)
    ensures user.None? ==> r == Err(Unauthenticated)
    ensures user.Some? && !AllRoleNames(roles) ==> r == Err(Failed)
    ensures user.Some? && AllRoleNames(roles) && user.value.role !in roles ==> r == Err(Forbidden)
    ensures r.Ok? <==> user.Some? && AllRoleNames(roles) && user.value.role in roles
    ensures r.Ok? ==> r.value == user.value
  {
    match user
    case None => Err(Unauthenticated)
    case Some(u) =>
      match Canonical(roles)
      case None => Err(Failed)
      case Some(valid) => if u.role in valid then Ok(u) else Err(Forbidden)
  }

  /** Role strings are compared exactly: a user whose role differs from every allowed
      name by as little as letter case is refused. */
  lemma ExactRoleMatch(u: User, role: Role)
    requires u.role != RoleName(role)
    ensures Handle(Some(u), [RoleName(role)]) == Err(Forbidden)
  {
    ParseRoleName(role);
  }
}

=== FILE: stock.dfy ===
/** The stock ledger: checkout lowers each ordered product's stock by its line's
    quantity (`decrement('stock', q)`), cancellation raises it back
    (`increment('stock', q)`), one line after the other. */
module Stock {
  import opened Base
  import opened Domain

  /** Units of product `p` recorded by `lines`. */
  function Ordered(lines: seq<OrderLine>, p: Id): (r: int)
    ensures NonNegative(lines) ==> 0 <= r
  {
    if |lines| == 0 then 0
    else (if lines[0].productId == p then lines[0].quantity else 0) + Ordered(lines[1..], p)
  }

  predicate NonNegative(lines: seq<OrderLine>) {
    forall k :: 0 <= k < |lines| ==> 0 <= lines[k].quantity
  }

  predicate DistinctProducts(lines: seq<OrderLine>) {
    forall j, k :: 0 <= j < k < |lines| ==> lines[j].productId != lines[k].productId
  }

  /** Apply the decrements of `lines` in order; a line whose product is gone changes nothing. */
  function Deplete(products: map<Id, Product>, lines: seq<OrderLine>): (r: map<Id, Product>)
    ensures r.Keys == products.Keys
    ensures forall p :: p in products ==>
              r[p] == products[p].(stock := products[p].stock - Ordered(lines, p))
  {
    if |lines| == 0 then products
    else
      var l := lines[0];
      var next :=
        if l.productId in products
        then products[l.productId := products[l.productId].(stock := products[l.productId].stock - l.quantity)]
        else products;
      Deplete(next, lines[1..])
  }

  /** Apply the increments of `lines` in order, skipping deleted products; `None`
      when an increment would leave the range of the `integer` column (the
      database raises and the transaction rolls back). */
  function Restock(products: map<Id, Product>, lines: seq<OrderLine>): (r: Option<map<Id, Product>>)
    ensures r.Some? ==> r.value.Keys == products.Keys
    ensures r.Some? ==> forall p :: p in products ==>
              r.value[p] == products[p].(stock := products[p].stock + Ordered(lines, p))
    ensures r.Some? ==> forall p :: p in products && products[p].stock <= MaxStock ==>
              r.value[p].stock <= MaxStock
    ensures NonNegative(lines) && (forall p :: p in products ==> products[p].stock + Ordered(lines, p) <= MaxStock)
            ==> r.Some?
  {
    if |lines| == 0 then Some(products)
    else
      var l := lines[0];
      if l.productId in products then
        var raised := products[l.productId].stock + l.quantity;
        if raised > MaxStock then None
        else Restock(products[l.productId := products[l.productId].(stock := raised)], lines[1..])
      else Restock(products, lines[1..])
  }

  /** With pairwise distinct products, a line's product is lowered by exactly that line's quantity. */
  lemma {:induction false} OrderedDistinct(lines: seq<OrderLine>, k: nat)
    requires DistinctProducts(lines)
    requires k < |lines|
    ensures Ordered(lines, lines[k].productId) == lines[k].quantity
  {
    if k == 0 {
      OrderedAbsent(lines[1..], lines[0].productId);
    } else {
      assert lines[1..][k - 1] == lines[k];
      OrderedDistinct(lines[1..], k - 1);
    }
  }

  /** A product no line mentions is left alone. */
  lemma {:induction false} OrderedAbsent(lines: seq<OrderLine>, p: Id)
    requires forall k :: 0 <= k < |lines| ==> lines[k].productId != p
    ensures Ordered(lines, p) == 0
  {
    if |lines| > 0 {
      assert forall k :: 0 <= k < |lines| - 1 ==> lines[1..][k] == lines[k + 1];
      OrderedAbsent(lines[1..], p);
    }
  }

  /** After checkout's decrements, putting the same lines back cannot overflow. */
  lemma RestockAfterDepleteFits(products: map<Id, Product>, lines: seq<OrderLine>)
    requires NonNegative(lines)
    requires forall p :: p in products ==> products[p].stock <= MaxStock
    ensures Restock(Deplete(products, lines), lines).Some?
  {
    var low := Deplete(products, lines);
    forall p | p in low
      ensures low[p].stock + Ordered(lines, p) <= MaxStock
    {
      assert low[p].stock == products[p].stock - Ordered(lines, p);
    }
  }

  /** Cancelling puts back exactly what checkout took: restocking after depleting
      by the same lines restores every product. */
  lemma {:induction false} RestockUndoesDeplete(products: map<Id, Product>, lines: seq<OrderLine>)
    requires NonNegative(lines)
    requires forall p :: p in products ==> products[p].stock <= MaxStock
    ensures Restock(Deplete(products, lines), lines) == Some(products)
  {
    RestockAfterDepleteFits(products, lines);
    var low := Deplete(products, lines);
    var back := Restock(low, lines).value;
    forall p | p in products
      ensures back[p] == products[p]
    {
      assert low[p] == products[p].(stock := products[p].stock - Ordered(lines, p));
      assert back[p] == low[p].(stock := low[p].stock + Ordered(lines, p));
    }
    assert back.Keys == products.Keys;
    assert back == products;
  }
}
